=== FILE: README.md ===
# File-transfer protocol: a Dafny model

The repository is a small TCP file server (`server.py`) and its interactive
client (`client.py`). After a handshake, the client sends one command line at
a time: `cd`, `mkdir`, `rm`, `ul` (upload), `dl` (download) or `exit`. The
server applies each command to its own directory tree and answers with a
textual snapshot of its current directory.

Every message is framed the same way. It is the payload followed by a
10-character session token, which the server draws at random and sends first,
unframed. Each side reads a message with `receive_message_ending_with_token`.
That function collects `recv` chunks until one chunk *ends* with the token.

The model replaces sockets, threads and the real file system with values:

- **Sockets.** What a side reads is a finite sequence of chunks (`Framing.Chunk`). What it writes is the list of its `sendall` payloads.
- **File systems.** Each file system is a set of directory paths plus a map from file paths to bytes (`Disk.FileSystem`).
- **Directory listings.** The order of `Path.iterdir` is a parameter of the server (`Server.Lister`).
- **Server state.** Each connection is a state value, `Server.Connection`. Its `cwd` is an `Option<Path>`, because the code can store `None` there.
- **Client state.** The client is a state value too, `Client.Terminal`.
- **Exceptions.** An exception that escapes `ClientThread.run`, or the client's `main`, ends that side. The model records this as status `Crashed`, and nothing more is read or sent after it.

Modules:

- `Wrappers`: `Option`.
- `Text`: concatenation and joining of sequences, infixes, and `str.split()` as `Words`.
- `Bytes`: `str.encode()` and `bytes.decode()` on ASCII text.
- `Framing`: the receive loop and the sender's `payload + token`.
- `Token`: the shape of the session token and its generator.
- `Paths`: paths as component lists, `os.path.join` followed by normalisation (`Resolve`), and rendering and parsing of absolute path strings.
- `Disk`: the abstract file system and the operations the handlers use (`os.makedirs`, `shutil.rmtree`, `open(..., "wb")`, `open(..., "rb")`).
- `Snapshot`: `get_working_directory_info` as a string function.
- `Commands`: prefix dispatch on both sides, and the argument `''.join(cmd.split()[1:])`.
- `Server`: the `handle_*` helpers and the loop of `ClientThread.run`.
- `Client`: `initialize`, the `issue_*` functions and the loop of `main`.
- `Protocol`: the two sides run against each other. What one side sends is what the other side reads.

The cross-side lemmas assume that each `sendall` arrives as exactly one
`recv` chunk. Since `recv(4096)` returns at most 4096 bytes, that can only
happen for messages of at most 4096 bytes, so the cross-side upload and
download lemmas say nothing about larger files. Separate lemmas in `Framing`
cover the other cases. A message split over several chunks is still received
whole (`ReceiveSegmented`), unless the token itself is split
(`SplitTokenMissed`). Two framed messages that arrive in one chunk are read as
a single message (`CoalescedFramesMerge`).

Two behaviours of the code need a word:

- **Failed `cd`.** `handle_cd` catches `NotADirectoryError` and `FileNotFoundError` (server.py:69-72). It prints a message and falls off the end, so it returns `None`, and `run` stores that in `current_dir` (server.py:177). The handlers print and carry on, so the author evidently meant the session to survive. Instead, the next snapshot raises and the thread dies. The model has both versions (see Findings).
- **Empty reads.** When the peer has closed, `recv` returns an empty chunk. An empty chunk never ends with the token, so `receive_message_ending_with_token` calls `recv` again, and the loop never ends. The model has no infinite loop: a finite stream with no terminating chunk yields `NoMessage`, and the connection is left `Blocked`.

## Model

| member | source | states |
|---|---|---|
| Token.GenerateToken | server.py:28-33 | The token is 10 characters long, `<` first and `>` last, with 8 ASCII letters or digits between; the i-th interior character is the i-th pick from the 62-character alphabet |
| Token.TokenFromShape | server.py:28-33 | Conversely, every token of that shape is produced by some sequence of 8 picks, so the shape predicate is exactly the generator's range |
| Token.TokenWire | server.py:161-162 | A token of that shape is ASCII, encodes to exactly 10 bytes, and decodes back to itself |
| Framing.ReceiveMessage | server.py:47-54 | The loop returns the same reception as the functional model of the receive loop (loop invariant: no chunk read so far ends with the token) |
| Framing.Tail | server.py:50 | `packet[-10:]` has at most 10 bytes, and exactly 10 when the chunk has at least 10 |
| Framing.Head | server.py:51 | `packet[:-10]` followed by `packet[-10:]` is the whole chunk |
| Framing.Terminates | server.py:50 | With a 10-byte token the exit test holds exactly when the chunk ends with the token; a shorter token matches only a chunk equal to it, and a longer token never matches |
| Framing.Receive | server.py:47-54 | When a message is received, at least one chunk has been consumed, and what is left unread is exactly a tail of the stream |
| Framing.Frame | server.py:203 | With a 10-byte token, the framed message ends with the token, and what precedes the token is the payload |
| Framing.CoalescedFramesMerge | client.py:110-114 | Two framed messages in one chunk (the `ul` line and the file bytes, say) are read as one message: the first payload, the token, then the second payload |
| Framing.ReceiveAtFirstTerminator | server.py:47-54 | If chunk i is the first whose last 10 bytes equal the token, the message is all earlier chunks concatenated, plus chunk i minus its last 10 bytes, and exactly the chunks after i are left unread |
| Framing.ReceiveWithoutTerminator | server.py:47-54 | When no chunk ends with the token, there is no message |
| Framing.FirstTerminator | client.py:17-25 | Conversely, every received message has a first terminating chunk, and the message and the unread remainder decompose around it |
| Framing.NoTerminatorInWholeStream | client.py:17-25 | "No message" means no chunk of the stream ends with the token |
| Framing.RoundTrip | server.py:50-52 | When `payload + token` arrives as one chunk, the receiver gets exactly `payload` and leaves later chunks unread |
| Framing.FrameTerminates | server.py:203 | A framed message ends with the token, and stripping the token gives back the payload |
| Framing.ReceiveOne | client.py:19-22 | A chunk that ends with the token is one whole message on its own, whatever follows it |
| Framing.ShortChunkNeverTerminates | server.py:50 | A chunk shorter than 10 bytes never ends a message |
| Framing.LongTokenNeverMatches | client.py:20 | A token longer than 10 bytes can never match a 10-byte tail, so no message is ever received |
| Framing.ReceiveSegmented | server.py:47-54 | A framed message split into pieces is still received whole, provided only the last piece ends with the token and that piece holds the whole token |
| Framing.SplitTokenMissed | server.py:50-53 | A token split across two chunks is missed: its bytes become part of the message, and reading continues into the next message |
| Framing.ReceiveSkips | client.py:17-25 | Chunks that do not end with the token are glued onto the front of whatever the rest of the stream yields |
| Framing.LastBytes | server.py:50-51 | If two ways of writing a stream agree and the last part is 10 bytes long, then the last 10 bytes are the token and what precedes them is the payload |
| Bytes.DecodeEncode | server.py:174 | Decoding an encoded ASCII string gives the string back |
| Bytes.EncodeDecode | client.py:47 | Encoding a decoded byte string gives the bytes back |
| Bytes.EncodeAppend | server.py:169 | Encoding distributes over concatenation, so `(text + token).encode()` is the framed encoding |
| Bytes.InfixSurvivesWire | client.py:63 | An ASCII substring of a message is still a substring of what the receiver decodes |
| Text.Words | server.py:176 | `str.split()` yields non-empty words with no whitespace, and a string that starts with a non-space character starts its first word with it |
| Text.ConcatWords | client.py:107-108 | Gluing the words of `split()` back together with `''.join` is the string with all whitespace deleted |
| Snapshot.Shape | server.py:16-18 | The snapshot is the header `Current Directory: wd:` and a bar line, then one `\n-- name` per directory, then one per file, with a bare `\n-- ` for an empty list |
| Snapshot.SectionIsBullets | server.py:16-17 | `'\n-- ' + '\n-- '.join(names)` is the marker before each name, and a single marker when there are no names |
| Snapshot.ListsEveryName | server.py:16-18 | For every listed directory and file name, the snapshot contains `\n-- name` |
| Snapshot.Render | server.py:16-18 | Every snapshot starts with the header for its directory, followed by the first list marker |
| Commands.ServerDispatchByPrefix | server.py:175-199 | The server picks a command exactly when that command's keyword starts the line, and closes exactly when no keyword does; the order of the tests does not matter |
| Commands.ClientDispatchByPrefix | client.py:160-180 | The client picks a command, `exit` included, exactly when its keyword starts the line |
| Commands.DispatchAgrees | client.py:176 | A line the client sends as a command is read by the server as the same command; `Exit` matches no server prefix; a line the client rejects would make the server close |
| Commands.ArgumentDropsSpaces | server.py:176-177 | The argument contains no whitespace, and the first word followed by the argument is the line with all whitespace removed |
| Commands.ArgumentOfWord | server.py:181-182 | `keyword name` has argument `name` |
| Commands.ArgumentGlues | server.py:176-177 | An argument typed as two words reaches the handler as one word, glued together (`cd my dir` moves into `mydir`) |
| Commands.ServerDispatch | server.py:175-199 | The server never dispatches `exit`, and any command it picks has its keyword at the start of the line |
| Commands.ClientDispatch | client.py:160-180 | Any command the client picks has its keyword at the start of the line |
| Commands.Argument | server.py:176-177 | The argument never contains whitespace |
| Paths.ResolveChild | server.py:66 | Joining a plain name to a directory gives that directory's child |
| Paths.ResolveParent | server.py:66-68 | `..` resolves to the parent, and the root is its own parent |
| Paths.ResolveEmpty | server.py:82 | An empty argument resolves to the working directory itself |
| Paths.ParseRender | server.py:68 | Rendering a path as an absolute string and parsing it back gives the same path |
| Paths.ParseJoined | server.py:66 | Joining with a `/` and normalising agrees with resolving the argument against the directory |
| Paths.ParseGlued | client.py:109 | Gluing a name to the rendered working directory with no separator names a sibling whose last component is the directory's name followed by the file name |
| Paths.Resolve | server.py:66 | Resolving against a well-formed path gives a well-formed path: no component is empty, `.`, `..` or contains `/` |
| Disk.MakeDirs | server.py:84 | `os.makedirs` without `exist_ok` fails exactly when some prefix of the path is a file or the path is already a directory; otherwise every prefix becomes a directory, files are untouched and no other directory appears |
| Disk.AncestorsAreDirs | server.py:84 | In a well-formed tree every prefix of a directory is a directory |
| Disk.NothingBelowNonDirectory | server.py:103 | In a well-formed tree nothing lies below a path that is not a directory: no directory at or under it, and no file strictly under it |
| Disk.MakeDirsValid | server.py:84 | Creating directories keeps the tree well formed: every entry's parent is a directory and no path is both a file and a directory |
| Disk.RemoveTree | server.py:103 | `shutil.rmtree` removes exactly the directories and files at or below the path, and keeps every other file's content |
| Disk.RemoveTreeValid | server.py:103 | Removing a subtree keeps the tree well formed |
| Disk.WriteFile | server.py:122-123 | Opening for writing succeeds exactly when the parent is a directory and the path is not one; the file then holds exactly the data, and every other file keeps its content |
| Disk.WriteFileValid | client.py:142-144 | Writing a file keeps the tree well formed |
| Disk.ReadFile | client.py:111-112 | Reading succeeds exactly on files, and returns their content |
| Server.DirInfo | server.py:10-19 | The snapshot can be computed exactly when the directory is present and exists, and it starts with the header for that directory |
| Server.HandleCd | server.py:65-72 | `cd` succeeds exactly when the resolved path is an existing directory, and then returns exactly the resolved path |
| Server.HandleMkdir | server.py:82-86 | Afterwards the target exists; files are unchanged and no directory disappears; when the target was absent, every missing ancestor is created along with it; no directory appears other than the target and its ancestors; an existing target leaves the file system unchanged; failure happens exactly when the target is absent and an ancestor is a file |
| Server.HandleRm | server.py:97-105 | The target is no longer a file; it is no longer a directory unless it was also a file; when it was a directory, no directory or file at or below it remains; everything not under it survives unchanged; nothing appears; a missing target changes nothing |
| Server.RmClearsSubtree | server.py:97-105 | In a well-formed tree, after `rm` nothing at or below the target remains, whether it was a file, a directory or absent |
| Server.HandleUl | server.py:119-124 | The upload succeeds exactly when the target's parent is a directory and the target is not one; the target then holds exactly the uploaded bytes, the directories are unchanged, and every other file is present exactly when it was before, with the same content |
| Server.DlReply | server.py:137-144 | A file is sent framed as its bytes; a missing path is sent as the framed text "The given file does not exists in server."; a directory makes `open` raise; every reply ends with the token |
| Server.Report | server.py:201-203 | The snapshot is sent framed exactly when the current directory is known and exists; otherwise the thread crashes without sending |
| Server.Perform | server.py:175-194 | For a recognised command: only `dl` sends before the snapshot; only `ul` reads a further message; `cd` and `dl` leave the file system alone; only `cd` can change the directory; the token and earlier sends are kept, and new sends are framed |
| Server.Execute | server.py:174-203 | A surviving pass knows an existing directory and has just sent its snapshot; new sends are framed and earlier ones kept; an unrecognised command only closes the connection |
| Server.Step | server.py:171-203 | One pass of the loop: a surviving connection knows a directory that exists, and has just sent that directory's snapshot; everything new it sent is framed; earlier sends are kept |
| Server.Run | server.py:171-203 | The loop ends only by closing, crashing or waiting for input that never comes, and never changes the token |
| Server.Start | server.py:161-169 | The handshake sends the bare token first, then the framed snapshot of the starting directory |
| Server.RunExtends | server.py:171-203 | The loop only appends to what was sent |
| Server.StepFramed | server.py:171-203 | One pass keeps every message after the token framed with the token |
| Server.RunFramed | server.py:171-203 | The whole loop keeps every message after the token framed |
| Server.ServeFramed | server.py:156-203 | Everything a connection ever sends after the bare token ends with the token |
| Server.Serve | server.py:156-203 | A connection always ends closed, crashed or waiting, and its first send is the bare token |
| Server.StepCounts | server.py:174-203 | A surviving pass sends exactly as many messages as the command's reply count; every command except `ul` reads exactly one message; an unknown command closes the connection without sending |
| Server.UnknownCloses | server.py:196-199 | An unrecognised command closes the socket, sends nothing and changes nothing |
| Server.CdMoves | server.py:175-177 | `cd` into a directory makes it the current directory and reports it |
| Server.CdFailureCrashes | server.py:177 | As written: `cd` to anything but a directory stores `None`, and the thread dies before answering |
| Server.CdFailureStays | server.py:65-72 | Corrected: a failed `cd` keeps the directory and reports it unchanged |
| Server.MkdirCreates | server.py:180-182 | `mkdir` survives exactly when the target exists or no ancestor is a file; it then leaves the target existing, creates the missing ancestors of an absent target, adds no other directory, keeps the files, and reports the unchanged current directory |
| Server.RmRemoves | server.py:184-186 | `rm` of anything outside the current directory's line of ancestors leaves no directory or file at or below the target, keeps everything outside it with its content, and reports the current directory |
| Server.RmOwnDirectoryCrashes | server.py:186 | Removing the current directory or one of its ancestors makes the next snapshot fail, so the thread dies without answering |
| Server.UlWrites | server.py:188-190 | `ul` reads exactly one more framed message, stores it verbatim at the target, leaves the directories and every other file (presence and content) unchanged, and reports |
| Server.UlStores | server.py:119-123 | If the upload survives, the target holds exactly the second message |
| Server.UlWaits | server.py:121 | Without a second framed message the server waits and sends nothing |
| Server.DlSends | server.py:192-194 | `dl` sends exactly two messages: the file's bytes (or the not-found text), then the snapshot |
| Client.Connect | client.py:43-47 | The token is the first chunk, decoded whole; then exactly one framed message is read and printed |
| Client.Await | client.py:63 | A framed receive prints the decoded message and consumes exactly the chunks it used |
| Client.Session | client.py:43-44 | The client's token is the whole first chunk it received |
| Client.Issue | client.py:156-180 | One line keeps the token and the directory, only appends to what was sent, never reads more than is there, and leaves local files alone unless it is `dl` |
| Client.Run | client.py:156-180 | The loop keeps the token and only appends to what was sent |
| Client.Outgoing | client.py:107-120 | Every recognised command other than `ul` sends its fixed number of messages (one, or the `Exit` message), an invalid line none; a `ul` refused by the existence check sends nothing; a `ul` that passes it sends both messages exactly when the file can be read, and only the line otherwise |
| Client.UploadFound | client.py:109 | As written, the existence check on a name tests the sibling of the working directory whose last component is the directory's name followed by the file name |
| Client.OutgoingFirst | client.py:62 | The first message of every recognised line is the framed line itself, or the framed `Exit` for `exit` |
| Client.IssueSends | client.py:156-180 | What a command line sends is fixed by the line and the local files, whatever the server answers |
| Client.OutgoingFramed | client.py:62 | Every message the client sends ends with the token |
| Client.SimpleCommand | client.py:62-63 | `cd`, `mkdir` and `rm` send exactly the framed line and print exactly one reply |
| Client.ExitSends | client.py:175-178 | `exit` sends exactly the framed `Exit` and receives nothing |
| Client.InvalidIgnored | client.py:179-180 | An unrecognised line sends nothing and changes nothing |
| Client.UlRefused | client.py:119-120 | A `ul` whose file the existence check does not find sends nothing and leaves the client unchanged |
| Client.DlStoresReply | client.py:135-146 | `dl` sends the framed line, stores the first reply verbatim under the argument's name and keeps every other file, then prints the second reply |
| Client.UlUploads | client.py:110-117 | `ul` with the file present sends the framed line, then the file's bytes framed, then prints one reply |
| Client.GluedCheckLooksBeside | client.py:109 | As written, the existence check looks at a sibling of the working directory, not inside it |
| Client.GluedCheckMissesFile | client.py:109-120 | As written: a file present in the working directory is refused and nothing is sent |
| Client.GluedCheckCrashes | client.py:109-112 | As written: when only the sibling exists, the framed line is sent and then `open` raises, ending the client; the server side of this is Server.UlWaits |
| Client.JoinedCheckMatchesRead | client.py:109-111 | Corrected: the check looks where `open` reads, so every readable file passes it and a file that passes is read |
| Protocol.HandshakeAgrees | client.py:43-47 | When the token and the snapshot arrive as separate chunks, the client learns the server's token and prints the server's starting snapshot |
| Protocol.CoalescedHandshakeHangs | client.py:43-44 | When the token and the snapshot arrive in one chunk, the client takes the whole chunk as the token and never reads a message |
| Protocol.CommandArrives | client.py:62 | The server reads exactly the line the client typed (or `Exit`) and dispatches it to the same command |
| Protocol.SentText | client.py:175-176 | The text a recognised ASCII line sends (the line, or `Exit`) survives encoding, and the server dispatches it as the client did, with `Exit` matching no server command |
| Protocol.ServerReadsRequests | server.py:174-194 | The server consumes exactly what the client sent for the line, sends the command's reply count, closes on `Exit`, and an upload stores the client's file content |
| Protocol.ClientReadsReplies | client.py:62-63 | The client consumes exactly the server's replies and prints the last one |
| Protocol.RoundAgrees | server.py:171-203 | One round keeps both sides in step: each consumes exactly what the other sent, and the client prints the server's snapshot |
| Protocol.ExitCloses | client.py:175-178 | `exit` stops the client, and the server closes without replying and without touching its files |
| Protocol.FailedCdHangsClient | server.py:177 | As written: after a failed `cd` the server dies and the client waits forever |
| Protocol.FailedCdKeepsDirectory | server.py:65-72 | Corrected: after a failed `cd` both sides stay in step and the client is shown the unchanged directory |
| Protocol.MkdirShowsNewDirectory | server.py:180-182 | After `mkdir name` the directory exists on the server and is among the subdirectories the listing of the current directory returns; the text the client prints is exactly the decoded snapshot of that directory in the new tree, and it contains `\n-- name` |
| Protocol.ListedInSnapshot | server.py:16 | A subdirectory of the current directory is among the names `iterdir` lists there, and the snapshot as the client decodes it contains `\n-- name` |
| Protocol.DlFetchesFile | client.py:135-146 | After `dl`, the client's local file holds the server file's bytes, or the not-found text when the server has no such file |

## Left out

- Sockets, `bind`/`listen`/`accept`/`connect` and `close` are left out; each side's input is a finite list of received chunks and its output the list of `sendall` payloads.
- The chunk size 4096 of `recv` is left out; chunk boundaries are an input, and separate lemmas cover split and coalesced messages. The cross-side lemmas (`Protocol.ServerReadsRequests` for uploads, `Protocol.DlFetchesFile`) take one chunk per `sendall`, which `recv(4096)` can deliver only for messages up to 4096 bytes; a larger file is covered only by `Framing.ReceiveSegmented`.
- Threads are left out. One connection is modelled at a time, and so is the process-wide `os.chdir` of `handle_cd`, which other connections would also see.
- `random.choice` is left out; the eight picks are an input to `Token.GenerateToken`.
- UTF-8 is left out. Text is ASCII, one byte per character, and `UnicodeDecodeError` on non-ASCII bytes is not modelled.
- `print` and `input()` are left out; printed server texts are recorded in `shown`, and the typed lines are an input.
- Path normalisation is lexical. Components `""`, `.` and `..` are handled; symbolic links and `os.path.join`'s reset on an absolute argument are not modelled.
- The order of `Path.iterdir` is a parameter (`Server.Lister`), and `Protocol.FaithfulLister` states when it lists a directory's contents.
- Permission errors and other operating-system failures beyond not-a-directory, not-found and is-a-directory are not modelled.
- Server.Run: a stream with no further message leaves the connection `Blocked`; the code would wait in `recv` forever.
- Client.Run: its contract states only that the token is kept and what was sent is extended; the per-line behaviour is stated by the lemmas about `Client.Issue`.
- `main` of the server (the accept loop) is left out.

## Findings

| source | as written | input that shows it | evidently intended | confidence | as-written member | corrected member |
|---|---|---|---|---|---|---|
| server.py:65-72 | A failed `cd` returns `None` from `handle_cd`, which `run` stores in `current_dir` (line 177). The next `get_working_directory_info(None)` raises, so the thread dies without answering and the client waits forever | `cd nosuchdir` | Keep the current directory and report it unchanged | not executed | Server.CdFailureCrashes, Protocol.FailedCdHangsClient | Server.CdFailureStays, Protocol.FailedCdKeepsDirectory |
| client.py:109 | The upload check tests `os.getcwd() + file_name`, with no path separator, but `open(file_name)` reads inside the working directory | In `/home/u`, `ul r.txt` checks `/home/ur.txt`. A present `r.txt` is refused; if only `/home/ur.txt` exists, the command is sent and `open` raises | Check `os.path.join(os.getcwd(), file_name)` | not executed | Client.GluedCheckMissesFile, Client.GluedCheckCrashes | Client.JoinedCheckMatchesRead |

=== FILE: bytes.dfy ===
/** Bytes on the wire and the ASCII text they carry.

    Both programs call `str.encode()` / `bytes.decode()` with the default
    UTF-8 codec. On ASCII text UTF-8 is the identity byte-per-char map, and
    that is the only text this model makes claims about. */
module Bytes {
  import Text

  newtype byte = x: int | 0 <= x < 256

  predicate IsAsciiChar(c: char) {
    c as int < 128
  }

  predicate IsAscii(s: string) {
    forall i :: 0 <= i < |s| ==> IsAsciiChar(s[i])
  }

  /** The low byte of a character's code point; the UTF-8 byte of an ASCII character. */
  function EncodeChar(c: char): byte {
    ((c as int) % 256) as byte
  }

  function DecodeByte(b: byte): char {
    (b as int) as char
  }

  /** `str.encode()` on ASCII text. */
  function Encode(s: string): (r: seq<byte>)
    ensures |r| == |s|
    ensures IsAscii(s) ==> forall i :: 0 <= i < |s| ==> r[i] as int == s[i] as int
  {
    seq(|s|, i requires 0 <= i < |s| => EncodeChar(s[i]))
  }

  /** `bytes.decode()` read byte per character. */
  function Decode(b: seq<byte>): (r: string)
    ensures |r| == |b|
    ensures IsAscii(r) <==> forall i :: 0 <= i < |b| ==> b[i] < 128
  {
    var r := seq(|b|, i requires 0 <= i < |b| => DecodeByte(b[i]));
    assert forall i :: 0 <= i < |b| ==> r[i] as int == b[i] as int;
    r
  }

  /** Decoding undoes encoding on ASCII text. */
  lemma DecodeEncode(s: string)
    requires IsAscii(s)
    ensures Decode(Encode(s)) == s
  {
    var d := Decode(Encode(s));
    forall i | 0 <= i < |s|
      ensures d[i] == s[i]
    {
    }
  }

  /** Encoding undoes decoding on every byte string. */
  lemma EncodeDecode(b: seq<byte>)
    ensures Encode(Decode(b)) == b
  {
  }

  /** Encoding is a homomorphism for concatenation. */
  lemma EncodeAppend(s: string, t: string)
    ensures Encode(s + t) == Encode(s) + Encode(t)
  {
  }

  lemma AsciiAppend(s: string, t: string)
    requires IsAscii(s) && IsAscii(t)
    ensures IsAscii(s + t)
  {
  }

  /** Encoding and decoding work character by character, so they commute
      with slicing. */
  lemma EncodeSlice(s: string, i: nat, j: nat)
    requires i <= j <= |s|
    ensures Encode(s)[i..j] == Encode(s[i..j])
  {
  }

  lemma DecodeSlice(b: seq<byte>, i: nat, j: nat)
    requires i <= j <= |b|
    ensures Decode(b)[i..j] == Decode(b[i..j])
  {
  }

  /** ASCII text inside a string is still there after the string has been
      encoded and decoded again. */
  lemma InfixSurvivesWire(t: string, s: string)
    requires IsAscii(t) && Text.IsInfix(t, s)
    ensures Text.IsInfix(t, Decode(Encode(s)))
  {
    var k :| 0 <= k <= |s| && Text.OccursAt(t, s, k);
    var j := k + |t|;
    var w := Decode(Encode(s));
    DecodeSlice(Encode(s), k, j);
    EncodeSlice(s, k, j);
    DecodeEncode(t);
    assert w[k..j] == t;
    assert Text.OccursAt(t, w, k);
  }
}

=== FILE: client.dfy ===
/** The client (`initialize`, the `issue_*` functions and the loop of
    `main`).

    The client is a state: the token learned in the handshake, its own
    working directory and file system, the chunks still to be read from the
    socket, every `sendall` made so far, and the server texts it has printed.
    The lines the user types are an input. An exception ends the program;
    the model records it as status `Crashed`. */
module Client {
  import opened Wrappers
  import opened Bytes
  import opened Framing
  import opened Paths
  import opened Disk
  import opened Commands
  import opened Text

  /** Where `issue_ul` looks for the file before uploading it: at
      `os.getcwd() + file_name`, with no separator (as written), or at the
      file name joined to the working directory, where `open` will look for
      it (corrected). */
  datatype UlCheck = GluedPath | JoinedPath

  datatype Status = Active | Exited | Blocked | Crashed

  /** The running client program. */
  datatype Terminal = Terminal(
    status: Status,
    token: string,
    cwd: Path,
    local: FileSystem,
    input: seq<Chunk>,
    sent: seq<seq<byte>>,
    shown: seq<string>)

  /** `initialize`: the first `recv` is taken whole as the token, then one
      framed message, the server's snapshot, is read and printed. */
  function Connect(cwd: Path, local: FileSystem, input: seq<Chunk>): (r: Terminal)
    ensures r.sent == [] && r.cwd == cwd && r.local == local
    ensures r.status == Active || r.status == Blocked
    ensures |input| > 0 ==> Encode(r.token) == input[0]
    ensures r.status == Active <==> |input| > 0 && Receive(input[1..], input[0]).Received?
    ensures r.status == Active ==>
      r.input == Receive(input[1..], input[0]).rest && r.shown == [Decode(Receive(input[1..], input[0]).msg)]
  {
    if |input| == 0 then Terminal(Blocked, "", cwd, local, [], [], [])
    else
      var token := Decode(input[0]);
      EncodeDecode(input[0]);
      match Receive(input[1..], Encode(token))
      case NoMessage => Terminal(Blocked, token, cwd, local, [], [], [])
      case Received(m, rest) => Terminal(Active, token, cwd, local, rest, [], [Decode(m)])
  }

  /** `print(receive_message_ending_with_token(...).decode())`. */
  function Await(c: Terminal): (r: Terminal)
    requires c.status == Active
    ensures r.sent == c.sent && r.local == c.local && r.token == c.token && r.cwd == c.cwd
    ensures r.status == Active <==> Receive(c.input, Encode(c.token)).Received?
    ensures r.status != Active ==> r.status == Blocked && r.shown == c.shown
    ensures r.status == Active ==>
      && r.input == Receive(c.input, Encode(c.token)).rest
      && r.shown == c.shown + [Decode(Receive(c.input, Encode(c.token)).msg)]
  {
    match Receive(c.input, Encode(c.token))
    case NoMessage => c.(status := Blocked, input := [])
    case Received(m, rest) => c.(input := rest, shown := c.shown + [Decode(m)])
  }

  /** The existence test of `issue_ul`. As written it glues the name onto
      the last component of the working directory, so it looks at a sibling
      of that directory. */
  predicate UploadFound(check: UlCheck, c: Terminal, name: string): (r: bool)
    ensures check == GluedPath && ValidPath(c.cwd) && c.cwd != [] && ValidName(name) ==>
      (r <==> Exists(c.local, c.cwd[..|c.cwd| - 1] + [c.cwd[|c.cwd| - 1] + name]))
  {
    match check
    case GluedPath =>
      var glued := Parse(Render(c.cwd) + name);
      assert ValidPath(c.cwd) && c.cwd != [] && ValidName(name) ==>
        glued == c.cwd[..|c.cwd| - 1] + [c.cwd[|c.cwd| - 1] + name] by {
        if ValidPath(c.cwd) && c.cwd != [] && ValidName(name) {
          ParseGlued(c.cwd, name);
        }
      }
      Exists(c.local, glued)
    case JoinedPath => Exists(c.local, Resolve(c.cwd, name))
  }

  /** One line typed by the user, dispatched by `main`. */
  function Issue(check: UlCheck, c: Terminal, line: string): (r: Terminal)
    requires c.status == Active
    ensures r.token == c.token && r.cwd == c.cwd
    ensures |c.sent| <= |r.sent| && r.sent[..|c.sent|] == c.sent
    ensures |r.input| <= |c.input|
    ensures ClientDispatch(line) != Dl ==> r.local == c.local
  {
    var tok := Encode(c.token);
    var command := Encode(line + c.token);
    match ClientDispatch(line)
    case Ul =>
      if !UploadFound(check, c, Argument(line)) then c   // "Given file does not exists."
      else
        var c1 := c.(sent := c.sent + [command]);
        (match ReadFile(c.local, Resolve(c.cwd, Argument(line)))
         case None => c1.(status := Crashed)
         case Some(data) => Await(c1.(sent := c1.sent + [data + tok])))
    case Dl =>
      var c1 := c.(sent := c.sent + [command]);
      (match Receive(c1.input, tok)
       case NoMessage => c1.(status := Blocked, input := [])
       case Received(data, rest) =>
         match WriteFile(c.local, Resolve(c.cwd, Argument(line)), data)
         case None => c1.(status := Crashed, input := rest)
         case Some(local') => Await(c1.(local := local', input := rest)))
    case Exit => c.(status := Exited, sent := c.sent + [Encode(ExitMessage + c.token)])
    case Unknown => c   // "Invalid Command"
    case _ => Await(c.(sent := c.sent + [command]))
  }

  /** The `while True` loop of `main` over the lines the user types. */
  function Run(check: UlCheck, c: Terminal, lines: seq<string>): (r: Terminal)
    ensures r.token == c.token
    ensures |c.sent| <= |r.sent| && r.sent[..|c.sent|] == c.sent
    decreases |lines|
  {
    if c.status != Active || |lines| == 0 then c
    else
      var t := Issue(check, c, lines[0]);
      var r := Run(check, t, lines[1..]);
      assert r.sent[..|t.sent|][..|c.sent|] == r.sent[..|c.sent|];
      r
  }

  /** The client program, from connecting to the last line typed. */
  function Session(check: UlCheck, cwd: Path, local: FileSystem, input: seq<Chunk>, lines: seq<string>): (r: Terminal)
    ensures |input| > 0 ==> Encode(r.token) == input[0]
  {
    Run(check, Connect(cwd, local, input), lines)
  }

  // -------------------------------------------------------------------
  // What the client sends does not depend on what it reads.

  /** The messages issuing `line` sends, worked out from the client's own
      state alone: every `sendall` of an `issue_*` function comes before its
      first receive. */
  function Outgoing(check: UlCheck, c: Terminal, line: string): (r: seq<seq<byte>>)
    ensures ClientDispatch(line) != Ul ==> |r| == Requests(ClientDispatch(line))
    ensures ClientDispatch(line) == Ul && !UploadFound(check, c, Argument(line)) ==> r == []
    ensures ClientDispatch(line) == Ul && UploadFound(check, c, Argument(line)) ==>
      (|r| == Requests(Ul) <==> ReadFile(c.local, Resolve(c.cwd, Argument(line))).Some?)
  {
    var tok := Encode(c.token);
    match ClientDispatch(line)
    case Ul =>
      if !UploadFound(check, c, Argument(line)) then []
      else
        (match ReadFile(c.local, Resolve(c.cwd, Argument(line)))
         case None => [Encode(line + c.token)]
         case Some(data) => [Encode(line + c.token), data + tok])
    case Exit => [Encode(ExitMessage + c.token)]
    case Unknown => []
    case _ => [Encode(line + c.token)]
  }

  /** The first message sent for a recognised line is the framed line, or
      the framed exit message for `exit`. */
  lemma OutgoingFirst(check: UlCheck, c: Terminal, line: string)
    requires ClientDispatch(line) != Unknown
    requires ClientDispatch(line) == Ul ==> UploadFound(check, c, Argument(line))
    ensures |Outgoing(check, c, line)| >= 1
    ensures Outgoing(check, c, line)[0] ==
      Frame(Encode(if ClientDispatch(line) == Exit then ExitMessage else line), Encode(c.token))
  {
    var text := if ClientDispatch(line) == Exit then ExitMessage else line;
    EncodeAppend(text, c.token);
  }

  lemma IssueSends(check: UlCheck, c: Terminal, line: string)
    requires c.status == Active
    ensures Issue(check, c, line).sent == c.sent + Outgoing(check, c, line)
  {
  }

  /** Every message the client sends ends with the token: the command line,
      the uploaded file and the exit message. */
  lemma OutgoingFramed(check: UlCheck, c: Terminal, line: string)
    requires |c.token| == TailLength
    ensures forall i :: 0 <= i < |Outgoing(check, c, line)| ==>
      Terminates(Outgoing(check, c, line)[i], Encode(c.token))
  {
    var tok := Encode(c.token);
    var out := Outgoing(check, c, line);
    if |out| > 0 {
      var text := if ClientDispatch(line) == Exit then ExitMessage else line;
      OutgoingFirst(check, c, line);
      FrameTerminates(Encode(text), tok);
      if |out| == 2 {
        var data := ReadFile(c.local, Resolve(c.cwd, Argument(line))).value;
        assert out[1] == Frame(data, tok);
        FrameTerminates(data, tok);
      }
    }
  }

  // -------------------------------------------------------------------
  // Per command.

  /** `cd`, `mkdir` and `rm` send the line and print one reply. */
  lemma SimpleCommand(check: UlCheck, c: Terminal, line: string, reply: seq<byte>, rest: seq<Chunk>)
    requires c.status == Active
    requires ClientDispatch(line) in {Cd, Mkdir, Rm}
    requires Receive(c.input, Encode(c.token)) == Received(reply, rest)
    ensures Issue(check, c, line) ==
      c.(input := rest, sent := c.sent + [Frame(Encode(line), Encode(c.token))], shown := c.shown + [Decode(reply)])
  {
    EncodeAppend(line, c.token);
  }

  /** `exit` sends the exit message and stops without reading anything. */
  lemma ExitSends(check: UlCheck, c: Terminal, line: string)
    requires c.status == Active && ClientDispatch(line) == Exit
    ensures Issue(check, c, line) ==
      c.(status := Exited, sent := c.sent + [Frame(Encode(ExitMessage), Encode(c.token))])
  {
    EncodeAppend(ExitMessage, c.token);
  }

  /** A line no branch of `main` recognises changes nothing. */
  lemma InvalidIgnored(check: UlCheck, c: Terminal, line: string)
    requires c.status == Active && ClientDispatch(line) == Unknown
    ensures Issue(check, c, line) == c
  {
  }

  /** A `ul` whose file the existence check does not find only prints a
      message: nothing is sent, read or changed. */
  lemma UlRefused(check: UlCheck, c: Terminal, line: string)
    requires c.status == Active && ClientDispatch(line) == Ul && !UploadFound(check, c, Argument(line))
    ensures Issue(check, c, line) == c
    ensures Outgoing(check, c, line) == []
  {
  }

  /** `dl` writes the first reply to the local file verbatim, whatever it
      is: the server's error text for a missing file becomes the file's
      content. Then it prints the second reply. */
  lemma DlStoresReply(check: UlCheck, c: Terminal, line: string, data: seq<byte>, rest: seq<Chunk>)
    requires c.status == Active && ClientDispatch(line) == Dl
    requires Receive(c.input, Encode(c.token)) == Received(data, rest)
    requires var p := Resolve(c.cwd, Argument(line));
      p != [] && p !in c.local.dirs && Parent(p) in c.local.dirs
    ensures var p := Resolve(c.cwd, Argument(line)); var r := Issue(check, c, line);
      && p in r.local.files && r.local.files[p] == data
      && r.local.dirs == c.local.dirs
      && (forall f :: f in c.local.files && f != p ==> f in r.local.files && r.local.files[f] == c.local.files[f])
      && r.sent == c.sent + [Frame(Encode(line), Encode(c.token))]
      && (r.status == Active <==> Receive(rest, Encode(c.token)).Received?)
    ensures var r := Issue(check, c, line); var reply := Receive(rest, Encode(c.token));
      reply.Received? ==> r.input == reply.rest && r.shown == c.shown + [Decode(reply.msg)]
  {
    EncodeAppend(line, c.token);
  }

  /** `ul` of a file found by the check sends the line, then the file's
      bytes framed with the token, and prints one reply. */
  lemma UlUploads(check: UlCheck, c: Terminal, line: string)
    requires c.status == Active && ClientDispatch(line) == Ul
    requires UploadFound(check, c, Argument(line))
    requires Resolve(c.cwd, Argument(line)) in c.local.files
    ensures var r := Issue(check, c, line);
      r.sent == c.sent + [Frame(Encode(line), Encode(c.token)),
                          Frame(c.local.files[Resolve(c.cwd, Argument(line))], Encode(c.token))]
    ensures Issue(check, c, line).status == Active <==> Receive(c.input, Encode(c.token)).Received?
    ensures var r := Issue(check, c, line); var reply := Receive(c.input, Encode(c.token));
      reply.Received? ==> r.input == reply.rest && r.shown == c.shown + [Decode(reply.msg)]
  {
    EncodeAppend(line, c.token);
  }

  // -------------------------------------------------------------------
  // The upload check.

  /** As written, the check glues the file name onto the last component of
      the working directory: it tests a sibling of the directory, not the
      file `open` reads. */
  lemma GluedCheckLooksBeside(c: Terminal, name: string)
    requires ValidPath(c.cwd) && c.cwd != [] && ValidName(name)
    ensures UploadFound(GluedPath, c, name) <==>
      Exists(c.local, c.cwd[..|c.cwd| - 1] + [c.cwd[|c.cwd| - 1] + name])
  {
    ParseGlued(c.cwd, name);
  }

  /** So a file that is there is refused: nothing is sent. */
  lemma GluedCheckMissesFile(c: Terminal, keyword: string, name: string)
    requires c.status == Active && keyword == "ul"
    requires ValidPath(c.cwd) && c.cwd != [] && ValidName(name) && NoSpace(name)
    requires c.cwd + [name] in c.local.files
    requires !Exists(c.local, c.cwd[..|c.cwd| - 1] + [c.cwd[|c.cwd| - 1] + name])
    ensures Issue(GluedPath, c, keyword + " " + name) == c
  {
    var line := keyword + " " + name;
    ArgumentOfWord(keyword, name);
    assert line[..2] == "ul";
    GluedCheckLooksBeside(c, name);
  }

  /** And a sibling that happens to exist lets the check pass for a file
      that is not there: the line goes out and `open` raises. (What the
      server does with a `ul` line and no file is `Server.UlWaits`.) */
  lemma GluedCheckCrashes(c: Terminal, keyword: string, name: string)
    requires c.status == Active && keyword == "ul"
    requires ValidPath(c.cwd) && c.cwd != [] && ValidName(name) && NoSpace(name)
    requires c.cwd + [name] !in c.local.files
    requires c.cwd[..|c.cwd| - 1] + [c.cwd[|c.cwd| - 1] + name] in c.local.files
    ensures Issue(GluedPath, c, keyword + " " + name) ==
      c.(status := Crashed, sent := c.sent + [Frame(Encode(keyword + " " + name), Encode(c.token))])
  {
    var line := keyword + " " + name;
    ArgumentOfWord(keyword, name);
    assert line[..2] == "ul";
    GluedCheckLooksBeside(c, name);
    ResolveChild(c.cwd, name);
    EncodeAppend(line, c.token);
  }

  /** Corrected, the check looks where `open` reads, and agrees with
      `os.path.exists(os.path.join(os.getcwd(), name))`: a found path that is
      not a directory is always read successfully, and a file that is there
      is always found. */
  lemma JoinedCheckMatchesRead(c: Terminal, name: string)
    requires ValidPath(c.cwd)
    ensures UploadFound(JoinedPath, c, name) <==> Exists(c.local, Parse(Render(c.cwd) + "/" + name))
    ensures UploadFound(JoinedPath, c, name) && Resolve(c.cwd, name) !in c.local.dirs ==>
      ReadFile(c.local, Resolve(c.cwd, name)).Some?
    ensures ReadFile(c.local, Resolve(c.cwd, name)).Some? ==> UploadFound(JoinedPath, c, name)
  {
    ParseJoined(c.cwd, name);
  }
}

=== FILE: commands.dfy ===
/** Command lines: which operation a line selects, and its argument.

    Both sides dispatch on `str.startswith` in a fixed order, and both take
    the argument to be the whitespace-separated words after the first one,
    glued together with no separator (`''.join(cmd.split()[1:])`). */
module Commands {
  import opened Text

  datatype Command = Cd | Mkdir | Rm | Ul | Dl | Exit | Unknown

  /** The prefix that selects a command. */
  function Keyword(c: Command): string {
    match c
    case Cd => "cd"
    case Mkdir => "mkdir"
    case Rm => "rm"
    case Ul => "ul"
    case Dl => "dl"
    case Exit => "exit"
    case Unknown => ""
  }

  /** What the client sends when the user types `exit`. */
  const ExitMessage := "Exit"

  /** How many framed messages the client sends for a command: the command
      line itself, and for `ul` the file after it; `exit` sends the exit
      message; an invalid line sends nothing. */
  function Requests(c: Command): nat {
    match c
    case Ul => 2
    case Unknown => 0
    case _ => 1
  }

  /** How many framed messages the server answers a command with: the
      snapshot, preceded for `dl` by the file; nothing when it closes. */
  function Replies(c: Command): nat {
    match c
    case Dl => 2
    case Exit => 0
    case Unknown => 0
    case _ => 1
  }

  /** The server's `if cmd.startswith(...)` chain; anything else closes the
      connection. */
  function ServerDispatch(cmd: string): (r: Command)
    ensures r != Exit
    ensures r != Unknown ==> Keyword(r) <= cmd
  {
    if "cd" <= cmd then Cd
    else if "mkdir" <= cmd then Mkdir
    else if "rm" <= cmd then Rm
    else if "ul" <= cmd then Ul
    else if "dl" <= cmd then Dl
    else Unknown
  }

  /** The client's chain: the same five commands, then `exit`; anything else
      is rejected locally. */
  function ClientDispatch(line: string): (r: Command)
    ensures r != Unknown ==> Keyword(r) <= line
  {
    if "cd" <= line then Cd
    else if "mkdir" <= line then Mkdir
    else if "rm" <= line then Rm
    else if "ul" <= line then Ul
    else if "dl" <= line then Dl
    else if "exit" <= line then Exit
    else Unknown
  }

  /** `''.join(cmd.split()[1:])`. */
  function Argument(cmd: string): (r: string)
    ensures NoSpace(r)
  {
    var w := Words(cmd);
    if |w| <= 1 then "" else ConcatNoSpace(w[1..]); Concat(w[1..])
  }

  /** No keyword is a prefix of another, so the order of the tests does not
      matter: the server picks a command exactly when its keyword starts the
      line, and closes exactly when none does. */
  lemma ServerDispatchByPrefix(cmd: string, c: Command)
    requires c != Exit && c != Unknown
    ensures ServerDispatch(cmd) == c <==> Keyword(c) <= cmd
    ensures ServerDispatch(cmd) == Unknown <==>
      forall k :: k != Exit && k != Unknown ==> !(Keyword(k) <= cmd)
  {
    KeywordsDiffer(cmd);
    if ServerDispatch(cmd) == Unknown {
      forall k | k != Exit && k != Unknown
        ensures !(Keyword(k) <= cmd)
      {
      }
    } else {
      assert Keyword(ServerDispatch(cmd)) <= cmd;
    }
  }

  /** The client picks a command exactly when its keyword starts the line. */
  lemma ClientDispatchByPrefix(line: string, c: Command)
    requires c != Unknown
    ensures ClientDispatch(line) == c <==> Keyword(c) <= line
  {
    KeywordsDiffer(line);
  }

  /** The keywords start with six different letters, so a line starts with
      at most one of them. */
  lemma KeywordsDiffer(s: string)
    ensures forall k :: k != Unknown && Keyword(k) <= s ==> |s| > 0 && s[0] == Keyword(k)[0]
  {
    forall k | k != Unknown && Keyword(k) <= s
      ensures |s| > 0 && s[0] == Keyword(k)[0]
    {
      assert s[..|Keyword(k)|] == Keyword(k);
    }
  }

  /** A line the client sends as a command is read by the server as the
      same command, and the client's exit message is one the server does not
      recognise, so it closes the connection. */
  lemma DispatchAgrees(line: string)
    ensures ClientDispatch(line) != Exit && ClientDispatch(line) != Unknown ==>
      ServerDispatch(line) == ClientDispatch(line)
    ensures ServerDispatch(ExitMessage) == Unknown
    ensures ClientDispatch(line) == Unknown ==> ServerDispatch(line) == Unknown
  {
    KeywordsDiffer(ExitMessage);
    assert ExitMessage[0] == 'E';
    assert Keyword(Cd) == "cd" && Keyword(Mkdir) == "mkdir" && Keyword(Rm) == "rm";
    assert Keyword(Ul) == "ul" && Keyword(Dl) == "dl" && Keyword(Exit) == "exit";
  }

  /** The argument has no whitespace, and the first word followed by the
      argument is the whole line with its whitespace deleted. */
  lemma ArgumentDropsSpaces(cmd: string)
    requires Words(cmd) != []
    ensures NoSpace(Argument(cmd))
    ensures Words(cmd)[0] + Argument(cmd) == RemoveSpaces(cmd)
  {
    var w := Words(cmd);
    ConcatWords(cmd);
    assert [w[0]] + w[1..] == w;
    ConcatAppend([w[0]], w[1..]);
    assert Concat([w[0]]) == w[0] + Concat([]);
  }

  /** A keyword followed by one word takes that word as its argument. */
  lemma ArgumentOfWord(keyword: string, a: string)
    requires keyword != "" && NoSpace(keyword) && a != "" && NoSpace(a)
    ensures Argument(keyword + " " + a) == a
  {
    var sa := " " + a;
    WordsOfWord(a);
    assert sa[1..] == a;
    WordsBeforeSpace(keyword, sa);
    assert keyword + " " + a == keyword + sa;
    assert ([keyword] + [a])[1..] == [a];
    assert Concat([a]) == a + Concat([]);
  }

  /** An argument typed as two words reaches the server as one: `cd my dir`
      changes into `mydir`. */
  lemma ArgumentGlues(keyword: string, a: string, b: string)
    requires keyword != "" && NoSpace(keyword)
    requires a != "" && NoSpace(a) && b != "" && NoSpace(b)
    ensures Argument(keyword + " " + a + " " + b) == a + b
  {
    WordsOfThree(keyword, a, b);
    assert [keyword, a, b][1..] == [a, b];
    assert Concat([a, b]) == a + Concat([b]);
    assert Concat([b]) == b + Concat([]);
  }

  /** Three words separated by single spaces split into those three words. */
  lemma WordsOfThree(keyword: string, a: string, b: string)
    requires keyword != "" && NoSpace(keyword)
    requires a != "" && NoSpace(a) && b != "" && NoSpace(b)
    ensures Words(keyword + " " + a + " " + b) == [keyword, a, b]
  {
    var sab := " " + a + " " + b;
    SpacedWords(a, b);
    RegroupLine(keyword, a, b);
    WordsBeforeSpace(keyword, sab);
  }

  lemma RegroupLine(keyword: string, a: string, b: string)
    ensures keyword + " " + a + " " + b == keyword + (" " + a + " " + b)
  {
  }

  lemma SpacedWord(b: string)
    requires b != "" && NoSpace(b)
    ensures Words(" " + b) == [b]
  {
    WordsOfWord(b);
    assert (" " + b)[1..] == b;
  }

  lemma SpacedWords(a: string, b: string)
    requires a != "" && NoSpace(a) && b != "" && NoSpace(b)
    ensures Words(" " + a + " " + b) == [a, b]
  {
    var sb := " " + b;
    SpacedWord(b);
    WordsBeforeSpace(a, sb);
    assert (" " + a + " " + b)[1..] == a + sb;
  }
}

=== FILE: disk.dfy ===
/** An abstract file system standing in for the real one on either side:
    the set of directory paths and a map from file paths to their bytes.

    Each function below is one library call the Python code makes, with
    `None` where that call raises. */
module Disk {
  import opened Wrappers
  import opened Bytes
  import opened Paths

  datatype FileSystem = FileSystem(dirs: set<Path>, files: map<Path, seq<byte>>)

  /** Every entry hangs under a directory, and nothing is both a file and a
      directory. */
  predicate Valid(fs: FileSystem) {
    && (forall d :: d in fs.dirs ==> ValidPath(d) && (d != [] ==> Parent(d) in fs.dirs))
    && (forall f :: f in fs.files ==> ValidPath(f) && f != [] && Parent(f) in fs.dirs && f !in fs.dirs)
  }

  /** `os.path.exists`. */
  predicate Exists(fs: FileSystem, p: Path) {
    p in fs.dirs || p in fs.files
  }

  /** A path and all of its ancestors, the root included. */
  function Ancestors(p: Path): (r: set<Path>)
    ensures forall k :: 0 <= k <= |p| ==> p[..k] in r
    ensures forall q :: q in r ==> |q| <= |p| && q == p[..|q|]
  {
    set k | 0 <= k <= |p| :: p[..k]
  }

  /** Some proper or improper ancestor of `p` is a file. */
  predicate UnderFile(fs: FileSystem, p: Path) {
    exists k :: 0 <= k <= |p| && p[..k] in fs.files
  }

  /** `os.makedirs(p)`: creates `p` and every missing ancestor. It raises
      when an ancestor, or `p` itself, is a file, and (`exist_ok` being
      false) when `p` is already a directory. */
  function MakeDirs(fs: FileSystem, p: Path): (r: Option<FileSystem>)
    ensures r.Some? <==> !UnderFile(fs, p) && p !in fs.dirs
    ensures r.Some? ==> r.value.files == fs.files
    ensures r.Some? ==> forall k :: 0 <= k <= |p| ==> p[..k] in r.value.dirs
    ensures r.Some? ==> forall d :: d in r.value.dirs ==> d in fs.dirs || d in Ancestors(p)
    ensures r.Some? ==> fs.dirs <= r.value.dirs
  {
    if UnderFile(fs, p) || p in fs.dirs then None
    else Some(fs.(dirs := fs.dirs + Ancestors(p)))
  }

  /** Everything at or below `p`, directories and files alike, is gone;
      everything else is untouched. This is `shutil.rmtree(p)`. */
  function RemoveTree(fs: FileSystem, p: Path): (r: FileSystem)
    ensures forall d :: d in r.dirs <==> d in fs.dirs && !(p <= d)
    ensures forall f :: f in r.files <==> f in fs.files && !(p <= f)
    ensures forall f :: f in r.files ==> r.files[f] == fs.files[f]
  {
    FileSystem(
      set d | d in fs.dirs && !(p <= d),
      map f | f in fs.files && !(p <= f) :: fs.files[f])
  }

  /** `open(p, "wb").write(data)`: replaces or creates the file. It raises
      when `p` is a directory (the root included) or its parent is not a
      directory. */
  function WriteFile(fs: FileSystem, p: Path, data: seq<byte>): (r: Option<FileSystem>)
    ensures r.Some? <==> p != [] && p !in fs.dirs && Parent(p) in fs.dirs
    ensures r.Some? ==> r.value.dirs == fs.dirs
    ensures r.Some? ==> p in r.value.files && r.value.files[p] == data
    ensures r.Some? ==> forall f :: f != p ==> (f in r.value.files <==> f in fs.files)
    ensures r.Some? ==> forall f :: f in fs.files && f != p ==> r.value.files[f] == fs.files[f]
  {
    if p == [] || p in fs.dirs || Parent(p) !in fs.dirs then None
    else Some(fs.(files := fs.files[p := data]))
  }

  /** `open(p, "rb").read()`: the bytes of a file; raises for a directory
      or a missing path. */
  function ReadFile(fs: FileSystem, p: Path): (r: Option<seq<byte>>)
    ensures r.Some? <==> p in fs.files
    ensures r.Some? ==> r.value == fs.files[p]
  {
    if p in fs.files then Some(fs.files[p]) else None
  }

  /** A listing of one directory's immediate subdirectories and files, in
      whatever order `Path.iterdir` yields them. */
  datatype Listing = Listing(dirs: seq<string>, files: seq<string>)

  /** `l` lists directory `p` of `fs`: each subdirectory and each file name
      exactly once. */
  predicate Lists(fs: FileSystem, p: Path, l: Listing) {
    && (forall i :: 0 <= i < |l.dirs| ==> p + [l.dirs[i]] in fs.dirs)
    && (forall i :: 0 <= i < |l.files| ==> p + [l.files[i]] in fs.files)
    && (forall d :: d in fs.dirs && |d| == |p| + 1 && d[..|p|] == p ==> d[|p|] in l.dirs)
    && (forall f :: f in fs.files && |f| == |p| + 1 && f[..|p|] == p ==> f[|p|] in l.files)
    && (forall i, j :: 0 <= i < j < |l.dirs| ==> l.dirs[i] != l.dirs[j])
    && (forall i, j :: 0 <= i < j < |l.files| ==> l.files[i] != l.files[j])
  }

  // -------------------------------------------------------------------
  // The operations keep the file system well formed.

  lemma MakeDirsValid(fs: FileSystem, p: Path)
    requires Valid(fs) && ValidPath(p) && MakeDirs(fs, p).Some?
    ensures Valid(MakeDirs(fs, p).value)
  {
    var r := MakeDirs(fs, p).value;
    forall d | d in r.dirs && d != []
      ensures ValidPath(d) && Parent(d) in r.dirs
    {
      if d !in fs.dirs {
        assert d == p[..|d|];
        assert Parent(d) == p[..|d| - 1];
      }
    }
  }

  lemma RemoveTreeValid(fs: FileSystem, p: Path)
    requires Valid(fs)
    ensures Valid(RemoveTree(fs, p))
  {
  }

  /** In a well-formed tree every ancestor of a directory is a directory. */
  lemma {:induction false} AncestorsAreDirs(fs: FileSystem, d: Path)
    requires Valid(fs) && d in fs.dirs
    ensures forall k :: 0 <= k <= |d| ==> d[..k] in fs.dirs
    ensures forall q :: q <= d ==> q in fs.dirs
    decreases |d|
  {
    if d != [] {
      var q := Parent(d);
      AncestorsAreDirs(fs, q);
      forall k | 0 <= k <= |d|
        ensures d[..k] in fs.dirs
      {
        if k < |d| {
          assert d[..k] == q[..k];
        } else {
          assert d[..k] == d;
        }
      }
    } else {
      assert d[..0] == d;
    }
    forall q | q <= d
      ensures q in fs.dirs
    {
      assert q == d[..|q|];
    }
  }

  /** In a well-formed tree nothing lies below a path that is not a
      directory: a file has no entries below it, and neither does a path
      that is not there. */
  lemma NothingBelowNonDirectory(fs: FileSystem, p: Path)
    requires Valid(fs) && p !in fs.dirs
    ensures forall d :: p <= d ==> d !in fs.dirs
    ensures forall f :: p <= f && f != p ==> f !in fs.files
  {
    forall d | p <= d && d in fs.dirs
      ensures false
    {
      AncestorsAreDirs(fs, d);
    }
    forall f | p <= f && f != p && f in fs.files
      ensures false
    {
      var q := Parent(f);
      AncestorsAreDirs(fs, q);
    }
  }

  lemma WriteFileValid(fs: FileSystem, p: Path, data: seq<byte>)
    requires Valid(fs) && ValidPath(p) && WriteFile(fs, p, data).Some?
    ensures Valid(WriteFile(fs, p, data).value)
  {
  }
}

=== FILE: framing.dfy ===
/** The framing codec shared by server.py and client.py.

    A framed message is its payload followed by the session token. The
    receiver reads chunks (one `recv(4096)` each) and stops at the first
    chunk whose last 10 bytes equal the token; the accumulated buffer, minus
    those 10 bytes, is the message. Only the current chunk's tail is looked
    at, never the tail of the accumulated buffer. */
module Framing {
  import opened Bytes
  import opened Text

  /** What one `recv` call returned. */
  type Chunk = seq<byte>

  /** The slice width hard-coded in `packet[-10:]` and `packet[:-10]`. */
  const TailLength := 10

  /** `packet[-10:]`: the last ten bytes, or the whole chunk if shorter. */
  function Tail(p: Chunk): (r: Chunk)
    ensures |r| <= TailLength
    ensures |p| >= TailLength ==> |r| == TailLength
  {
    if |p| <= TailLength then p else p[|p| - TailLength..]
  }

  /** `packet[:-10]`: everything but the last ten bytes, empty if shorter. */
  function Head(p: Chunk): (r: Chunk)
    ensures r + Tail(p) == p
  {
    if |p| <= TailLength then [] else p[..|p| - TailLength]
  }

  /** The loop's exit test `packet[-10:] == eof_token.encode()`. With a
      10-byte token it asks whether the chunk ends with the token; Python's
      slice of a shorter chunk is the whole chunk, so a shorter token only
      matches a chunk equal to it, and a longer token never matches. */
  predicate Terminates(p: Chunk, token: seq<byte>): (r: bool)
    ensures |token| == TailLength ==> (r <==> |p| >= TailLength && p[|p| - TailLength..] == token)
    ensures |token| < TailLength ==> (r <==> p == token)
    ensures |token| > TailLength ==> !r
  {
    Tail(p) == token
  }

  /** The sender side: `sendall(payload + token)`. */
  function Frame(payload: seq<byte>, token: seq<byte>): (r: seq<byte>)
    ensures |token| == TailLength ==> Terminates(r, token) && Head(r) == payload
  {
    var r := payload + token;
    assert r[|r| - |token|..] == token;
    r
  }

  datatype Reception =
    | Received(msg: seq<byte>, rest: seq<Chunk>)
    | NoMessage   // no chunk of the finite stream terminates a message

  /** The receive loop over a finite stream of chunks. A reception consumes
      a non-empty prefix of the stream and leaves the rest, in order, for
      the next receive. */
  function Receive(chunks: seq<Chunk>, token: seq<byte>): (r: Reception)
    ensures r.Received? ==> |r.rest| < |chunks|
    ensures r.Received? ==> r.rest == chunks[|chunks| - |r.rest|..]
  {
    if |chunks| == 0 then NoMessage
    else if Terminates(chunks[0], token) then Received(Head(chunks[0]), chunks[1..])
    else
      match Receive(chunks[1..], token)
      case NoMessage => NoMessage
      case Received(m, rest) => Received(chunks[0] + m, rest)
  }

  /** The `while True` loop as written: accumulate chunks into `message`
      until a chunk's tail is the token. It computes the same reception as
      the chunk-wise definition above. */
  method ReceiveMessage(chunks: seq<Chunk>, token: seq<byte>) returns (r: Reception)
    ensures r == Receive(chunks, token)
  {
    var message: seq<byte> := [];
    var i := 0;
    while i < |chunks|
      invariant 0 <= i <= |chunks|
      invariant message == Concat(chunks[..i])
      invariant forall j :: 0 <= j < i ==> !Terminates(chunks[j], token)
    {
      var packet := chunks[i];
      if Tail(packet) == token {
        message := message + Head(packet);
        ReceiveAtFirstTerminator(chunks, token, i);
        return Received(message, chunks[i + 1..]);
      }
      ConcatSnoc(chunks[..i], packet);
      assert chunks[..i + 1] == chunks[..i] + [packet];
      message := message + packet;
      i := i + 1;
    }
    ReceiveWithoutTerminator(chunks, token);
    return NoMessage;
  }

  /** Decomposition: the message is every chunk before the first terminating
      one, followed by that chunk minus its last ten bytes; the chunks after
      it are not consumed. */
  lemma {:induction false} ReceiveAtFirstTerminator(chunks: seq<Chunk>, token: seq<byte>, i: nat)
    requires i < |chunks| && Terminates(chunks[i], token)
    requires forall j :: 0 <= j < i ==> !Terminates(chunks[j], token)
    ensures Receive(chunks, token) == Received(Concat(chunks[..i]) + Head(chunks[i]), chunks[i + 1..])
  {
    var pre, c, post := chunks[..i], chunks[i], chunks[i + 1..];
    assert chunks == pre + ([c] + post);
    ReceiveSkips(pre, token, [c] + post);
    assert ([c] + post)[1..] == post;
  }

  /** Without a terminating chunk there is no message. */
  lemma {:induction false} ReceiveWithoutTerminator(chunks: seq<Chunk>, token: seq<byte>)
    requires forall j :: 0 <= j < |chunks| ==> !Terminates(chunks[j], token)
    ensures Receive(chunks, token) == NoMessage
  {
    if |chunks| > 0 {
      ReceiveWithoutTerminator(chunks[1..], token);
    }
  }

  /** Round trip: a framed payload arriving as one chunk is received as
      exactly that payload, whatever the payload contains, and nothing after
      it is consumed. */
  lemma RoundTrip(payload: seq<byte>, token: seq<byte>, later: seq<Chunk>)
    requires |token| == TailLength
    ensures Receive([Frame(payload, token)] + later, token) == Received(payload, later)
  {
    var p := Frame(payload, token);
    assert Tail(p) == token;
    assert Head(p) == payload;
    assert ([p] + later)[1..] == later;
  }

  /** A framed payload ends with the token, so it terminates a receive when
      it arrives as one chunk. */
  lemma FrameTerminates(payload: seq<byte>, token: seq<byte>)
    requires |token| == TailLength
    ensures Terminates(Frame(payload, token), token)
    ensures Head(Frame(payload, token)) == payload
  {
    var p := Frame(payload, token);
    assert p[|p| - TailLength..] == token;
  }

  /** A chunk that ends with the token is a whole message on its own. */
  lemma ReceiveOne(p: Chunk, token: seq<byte>, later: seq<Chunk>)
    requires Terminates(p, token)
    ensures Receive([p] + later, token) == Received(Head(p), later)
  {
    assert ([p] + later)[1..] == later;
  }

  /** Two framed messages that arrive in one chunk are read as one message:
      the first payload, the token, and the second payload. This is what
      happens when the `ul` command line and the file's bytes are coalesced:
      the server takes both for the command line. */
  lemma CoalescedFramesMerge(a: seq<byte>, b: seq<byte>, token: seq<byte>, later: seq<Chunk>)
    requires |token| == TailLength
    ensures Receive([Frame(a, token) + Frame(b, token)] + later, token) == Received(a + token + b, later)
  {
    var p := Frame(a, token) + Frame(b, token);
    assert p == Frame(a + token + b, token);
    RoundTrip(a + token + b, token, later);
  }

  /** A chunk shorter than the token never ends a message. */
  lemma ShortChunkNeverTerminates(p: Chunk, token: seq<byte>)
    requires |token| == TailLength && |p| < TailLength
    ensures !Terminates(p, token)
  {
  }

  /** A token longer than ten bytes never matches: a receive with it never
      returns. */
  lemma LongTokenNeverMatches(chunks: seq<Chunk>, token: seq<byte>)
    requires |token| > TailLength
    ensures Receive(chunks, token) == NoMessage
  {
    ReceiveWithoutTerminator(chunks, token);
  }

  /** A message cut into chunks is received intact as long as only its last
      chunk ends with the token and that chunk holds at least ten bytes. */
  lemma ReceiveSegmented(pieces: seq<Chunk>, payload: seq<byte>, token: seq<byte>, later: seq<Chunk>)
    requires |pieces| > 0 && Concat(pieces) == Frame(payload, token)
    requires |token| == TailLength && |pieces[|pieces| - 1]| >= TailLength
    requires forall j :: 0 <= j < |pieces| - 1 ==> !Terminates(pieces[j], token)
    ensures Receive(pieces + later, token) == Received(payload, later)
  {
    var n := |pieces| - 1;
    var all := pieces + later;
    var last := pieces[n];
    var before := Concat(pieces[..n]);
    assert pieces == pieces[..n] + [last];
    ConcatSnoc(pieces[..n], last);
    assert before + last == payload + token;
    LastBytes(before, last, payload, token);
    assert Terminates(all[n], token);
    forall j | 0 <= j < n
      ensures !Terminates(all[j], token)
    {
      assert all[j] == pieces[j];
    }
    ReceiveAtFirstTerminator(all, token, n);
    assert all[..n] == pieces[..n];
    assert all[n + 1..] == later;
  }

  /** Two ways of cutting the same byte string agree on its last bytes. */
  lemma LastBytes(a: seq<byte>, b: seq<byte>, c: seq<byte>, d: seq<byte>)
    requires a + b == c + d && |b| >= |d| == TailLength
    ensures Tail(b) == d && a + Head(b) == c
  {
    var n := |a + b|;
    assert b[|b| - |d|..] == (a + b)[n - |d|..];
    assert (c + d)[n - |d|..] == d;
    assert a + Head(b) == (a + b)[..n - |d|];
    assert (c + d)[..n - |d|] == c;
  }

  /** The token split over two chunks is never seen: when a frame ends with
      a chunk of fewer than ten bytes and no earlier chunk happens to end
      with the token, the receive runs on into the following chunks. */
  lemma SplitTokenMissed(pieces: seq<Chunk>, token: seq<byte>, later: seq<Chunk>)
    requires |token| == TailLength && |pieces| > 0 && |pieces[|pieces| - 1]| < TailLength
    requires forall j :: 0 <= j < |pieces| - 1 ==> !Terminates(pieces[j], token)
    ensures Receive(later, token).NoMessage? ==> Receive(pieces + later, token) == NoMessage
    ensures Receive(later, token).Received? ==>
      Receive(pieces + later, token) ==
        Received(Concat(pieces) + Receive(later, token).msg, Receive(later, token).rest)
  {
    ShortChunkNeverTerminates(pieces[|pieces| - 1], token);
    ReceiveSkips(pieces, token, later);
  }

  /** Chunks that do not terminate are absorbed into whatever message the
      chunks after them complete. */
  lemma {:induction false} ReceiveSkips(pre: seq<Chunk>, token: seq<byte>, later: seq<Chunk>)
    requires forall j :: 0 <= j < |pre| ==> !Terminates(pre[j], token)
    ensures Receive(later, token).NoMessage? ==> Receive(pre + later, token) == NoMessage
    ensures Receive(later, token).Received? ==>
      Receive(pre + later, token) ==
        Received(Concat(pre) + Receive(later, token).msg, Receive(later, token).rest)
  {
    var s := pre + later;
    if |pre| == 0 {
      assert s == later;
    } else {
      assert s[1..] == pre[1..] + later;
      assert !Terminates(s[0], token);
      ReceiveSkips(pre[1..], token, later);
      var r' := Receive(s[1..], token);
      assert Receive(s, token) == (if r'.NoMessage? then NoMessage else Received(pre[0] + r'.msg, r'.rest));
      if Receive(later, token).Received? {
        var m := Receive(later, token).msg;
        assert r'.msg == Concat(pre[1..]) + m;
        assert pre[0] + (Concat(pre[1..]) + m) == Concat(pre) + m;
      }
    }
  }

  /** A stream the receive finds no message in has no terminating chunk. */
  lemma {:induction false} NoTerminatorInWholeStream(chunks: seq<Chunk>, token: seq<byte>)
    requires Receive(chunks, token).NoMessage?
    ensures forall j :: 0 <= j < |chunks| ==> !Terminates(chunks[j], token)
  {
    if |chunks| > 0 {
      NoTerminatorInWholeStream(chunks[1..], token);
      assert forall j :: 0 < j < |chunks| ==> chunks[j] == chunks[1..][j - 1];
    }
  }

  /** The index of the chunk a successful receive stopped at. */
  lemma {:induction false} FirstTerminator(chunks: seq<Chunk>, token: seq<byte>) returns (k: nat)
    requires Receive(chunks, token).Received?
    ensures k < |chunks| && Terminates(chunks[k], token)
    ensures forall j :: 0 <= j < k ==> !Terminates(chunks[j], token)
    ensures Receive(chunks, token).rest == chunks[k + 1..]
    ensures Receive(chunks, token).msg == Concat(chunks[..k]) + Head(chunks[k])
  {
    if Terminates(chunks[0], token) {
      k := 0;
    } else {
      var k' := FirstTerminator(chunks[1..], token);
      k := k' + 1;
      assert forall j :: 0 < j < |chunks| ==> chunks[j] == chunks[1..][j - 1];
      ReceiveAtFirstTerminator(chunks, token, k);
    }
  }
}

=== FILE: paths.dfy ===
/** Server- and client-side paths.

    A path is the list of its components from the root. `os.path.join(cwd,
    arg)` is modelled by `Resolve`, which normalises the joined path
    lexically: the argument is scanned character by character, `/` ends a
    component, an empty component or `.` stays put, `..` goes to the parent
    (the root is its own parent), and any other component descends into the
    child of that name. The operating system instead walks the components
    one by one and fails on a missing one, so `cd nosuch/..` raises where
    `Resolve` gives back the working directory; that difference is not
    modelled. */
module Paths {
  import opened Text

  type Path = seq<string>

  /** A component a resolved path can hold. */
  predicate ValidName(c: string) {
    c != "" && c != "." && c != ".." && '/' !in c
  }

  predicate ValidPath(p: Path) {
    forall i :: 0 <= i < |p| ==> ValidName(p[i])
  }

  function Parent(p: Path): Path {
    if p == [] then [] else p[..|p| - 1]
  }

  /** Moving from directory `p` by one component `c`. */
  function StepName(p: Path, c: string): (r: Path)
    requires '/' !in c
    ensures ValidPath(p) ==> ValidPath(r)
  {
    if c == "" || c == "." then p
    else if c == ".." then Parent(p)
    else p + [c]
  }

  /** The walk so far: the directory reached and the component being read. */
  datatype Cursor = Cursor(dir: Path, pending: string)

  function Scan(k: Cursor, s: string): (r: Cursor)
    requires '/' !in k.pending
    ensures '/' !in r.pending
    ensures ValidPath(k.dir) ==> ValidPath(r.dir)
    decreases |s|
  {
    if |s| == 0 then k
    else if s[0] == '/' then Scan(Cursor(StepName(k.dir, k.pending), ""), s[1..])
    else Scan(k.(pending := k.pending + [s[0]]), s[1..])
  }

  /** `os.path.join(cwd, arg)`, normalised lexically. */
  function Resolve(cwd: Path, arg: string): (r: Path)
    ensures ValidPath(cwd) ==> ValidPath(r)
  {
    var k := Scan(Cursor(cwd, ""), arg);
    StepName(k.dir, k.pending)
  }

  /** A path as `os.getcwd()` prints it: `/` for the root, otherwise each
      component preceded by `/`. */
  function Render(p: Path): string {
    if p == [] then "/" else Concat(seq(|p|, i requires 0 <= i < |p| => "/" + p[i]))
  }

  /** An absolute path string, resolved from the root. */
  function Parse(s: string): Path {
    Resolve([], s)
  }

  /** Scanning is a left fold: scanning `a + b` scans `a`, then `b`. */
  lemma {:induction false} ScanAppend(k: Cursor, a: string, b: string)
    requires '/' !in k.pending
    ensures Scan(k, a + b) == Scan(Scan(k, a), b)
    decreases |a|
  {
    if |a| == 0 {
      assert a + b == b;
    } else {
      assert (a + b)[0] == a[0];
      assert (a + b)[1..] == a[1..] + b;
      if a[0] == '/' {
        ScanAppend(Cursor(StepName(k.dir, k.pending), ""), a[1..], b);
      } else {
        ScanAppend(k.(pending := k.pending + [a[0]]), a[1..], b);
      }
    }
  }

  /** Characters other than `/` only extend the pending component. */
  lemma {:induction false} ScanWord(k: Cursor, w: string)
    requires '/' !in k.pending && '/' !in w
    ensures Scan(k, w) == Cursor(k.dir, k.pending + w)
    decreases |w|
  {
    if |w| > 0 {
      ScanWord(k.(pending := k.pending + [w[0]]), w[1..]);
      assert k.pending + [w[0]] + w[1..] == k.pending + w;
    }
  }

  /** A single valid name resolves to the child of that name. */
  lemma ResolveChild(cwd: Path, name: string)
    requires ValidName(name)
    ensures Resolve(cwd, name) == cwd + [name]
  {
    ScanWord(Cursor(cwd, ""), name);
    assert "" + name == name;
  }

  /** `..` resolves to the parent, and stays at the root. */
  lemma ResolveParent(cwd: Path)
    ensures Resolve(cwd, "..") == Parent(cwd)
  {
    ScanWord(Cursor(cwd, ""), "..");
    assert "" + ".." == "..";
  }

  /** The empty argument resolves to the directory itself. */
  lemma ResolveEmpty(cwd: Path)
    ensures Resolve(cwd, "") == cwd
  {
  }

  /** Rendering followed by scanning from the root: every component but the
      last is walked into, the last one is still pending. */
  lemma {:induction false} ScanRender(p: Path)
    requires ValidPath(p) && p != []
    ensures Scan(Cursor([], ""), Render(p)) == Cursor(p[..|p| - 1], p[|p| - 1])
    decreases |p|
  {
    var n := |p|;
    var parts := seq(n, i requires 0 <= i < n => "/" + p[i]);
    if n == 1 {
      assert parts == ["/" + p[0]];
      assert Concat(parts) == "/" + p[0] + Concat(parts[1..]);
      assert Render(p) == "/" + p[0];
      ScanAppend(Cursor([], ""), "/", p[0]);
      ScanWord(Cursor([], ""), p[0]);
    } else {
      var q := p[..n - 1];
      var qparts := seq(n - 1, i requires 0 <= i < n - 1 => "/" + q[i]);
      assert parts == qparts + ["/" + p[n - 1]];
      ConcatSnoc(qparts, "/" + p[n - 1]);
      assert Render(p) == Render(q) + ("/" + p[n - 1]);
      ScanRender(q);
      ScanAppend(Cursor([], ""), Render(q), "/" + p[n - 1]);
      ScanAppend(Cursor(q[..n - 2], q[n - 2]), "/", p[n - 1]);
      ScanWord(Cursor(q, ""), p[n - 1]);
      assert q[..n - 2] + [q[n - 2]] == q;
    }
  }

  /** Parsing undoes rendering. */
  lemma ParseRender(p: Path)
    requires ValidPath(p)
    ensures Parse(Render(p)) == p
  {
    if p != [] {
      ScanRender(p);
      assert p[..|p| - 1] + [p[|p| - 1]] == p;
    } else {
      assert Render(p) == "/";
      assert Scan(Cursor([], ""), "/") == Scan(Cursor([], ""), "");
    }
  }

  /** Joining a rendered directory and an argument with `/` resolves the
      argument against that directory. */
  lemma ParseJoined(cwd: Path, arg: string)
    requires ValidPath(cwd)
    ensures Parse(Render(cwd) + "/" + arg) == Resolve(cwd, arg)
  {
    var k0 := Cursor([], "");
    if cwd == [] {
      assert Render(cwd) + "/" + arg == "/" + ("/" + arg);
      ScanAppend(k0, "/", "/" + arg);
      ScanAppend(k0, "/", arg);
    } else {
      var n := |cwd|;
      ScanRender(cwd);
      assert Render(cwd) + "/" + arg == Render(cwd) + ("/" + arg);
      ScanAppend(k0, Render(cwd), "/" + arg);
      ScanAppend(Cursor(cwd[..n - 1], cwd[n - 1]), "/", arg);
      assert cwd[..n - 1] + [cwd[n - 1]] == cwd;
    }
  }

  /** Appending an argument to a rendered directory with no `/` in between
      glues the argument onto the directory's last component. */
  lemma ParseGlued(cwd: Path, name: string)
    requires ValidPath(cwd) && cwd != [] && ValidName(name)
    ensures Parse(Render(cwd) + name) == cwd[..|cwd| - 1] + [cwd[|cwd| - 1] + name]
  {
    var n := |cwd|;
    ScanRender(cwd);
    ScanAppend(Cursor([], ""), Render(cwd), name);
    ScanWord(Cursor(cwd[..n - 1], cwd[n - 1]), name);
    var glued := cwd[n - 1] + name;
    assert |glued| >= 2 && glued[0] == cwd[n - 1][0];
  }
}

=== FILE: protocol.dfy ===
/** The two programs talking to each other.

    Delivery is taken to be the simplest the network can offer: every
    `sendall` of one side arrives at the other as exactly one `recv` chunk,
    so the chunk stream one side reads is the list of messages the other
    sent. Under that assumption the client's messages for a command are
    exactly what the server's handler reads, and the server's replies are
    exactly what the client's `issue_*` function reads. */
module Protocol {
  import opened Bytes
  import opened Text
  import opened Framing
  import opened Token
  import opened Paths
  import opened Disk
  import opened Commands
  import Snapshot
  import Server
  import Client

  /** The text of the snapshot of directory `p`. */
  function SnapshotText(list: Server.Lister, fs: FileSystem, p: Path): string {
    var l := list(fs, p);
    Snapshot.Render(Render(p), l.dirs, l.files)
  }

  /** The handshake: the client learns the server's token from the first
      chunk, prints the snapshot of the server's directory, and is left at
      the first chunk after the handshake. */
  lemma HandshakeAgrees(list: Server.Lister, token: string, home: Path, fs: FileSystem, input: seq<Chunk>,
                        cwd: Path, local: FileSystem, later: seq<Chunk>)
    requires ValidToken(token) && home in fs.dirs
    ensures var s := Server.Start(list, token, home, fs, input);
      var c := Client.Connect(cwd, local, s.sent + later);
      && c.status == Client.Active && c.token == token && c.input == later
      && c.shown == [Decode(Encode(SnapshotText(list, fs, home)))]
  {
    var s := Server.Start(list, token, home, fs, input);
    var chunks := s.sent + later;
    var tok := Encode(token);
    var m := Encode(SnapshotText(list, fs, home));
    TokenWire(token);
    assert s.sent == [tok, Frame(m, tok)];
    assert chunks[0] == tok && chunks[1..] == [Frame(m, tok)] + later;
    RoundTrip(m, tok, later);
    var c := Client.Connect(cwd, local, chunks);
    assert c.token == Decode(tok);
  }

  /** If the token and the first snapshot arrive in one chunk, the client
      takes the whole chunk for the token; no later chunk can end with a
      token that long, so the client never finishes connecting. */
  lemma CoalescedHandshakeHangs(list: Server.Lister, token: string, home: Path, fs: FileSystem, input: seq<Chunk>,
                                cwd: Path, local: FileSystem, later: seq<Chunk>)
    requires ValidToken(token) && home in fs.dirs
    ensures var s := Server.Start(list, token, home, fs, input);
      Client.Connect(cwd, local, [s.sent[0] + s.sent[1]] + later).status == Client.Blocked
  {
    var s := Server.Start(list, token, home, fs, input);
    var first := s.sent[0] + s.sent[1];
    TokenWire(token);
    assert ([first] + later)[1..] == later;
    LongTokenNeverMatches(later, first);
  }

  /** The two ends are at the same point of a conversation: same token, the
      server waiting for a command, the client about to issue one. */
  predicate InStep(s: Server.Connection, c: Client.Terminal) {
    && s.status == Server.Serving && c.status == Client.Active
    && s.token == c.token && ValidToken(c.token) && s.cwd.Some?
  }

  /** The client can complete what it sends for `line`: a recognised line
      and, for `ul`, a file the check finds and `open` reads. */
  predicate Sendable(check: Client.UlCheck, c: Client.Terminal, line: string) {
    && IsAscii(line)
    && ClientDispatch(line) != Unknown
    && (ClientDispatch(line) == Ul ==>
          Client.UploadFound(check, c, Argument(line))
          && Resolve(c.cwd, Argument(line)) in c.local.files)
  }

  /** The first message the client sends for a line reaches the server
      whole, and the server reads the same text: the line itself, or the
      exit message for `exit`, which no server branch recognises. */
  lemma CommandArrives(check: Client.UlCheck, s: Server.Connection, c: Client.Terminal, line: string, later: seq<Chunk>)
    returns (text: string)
    requires InStep(s, c) && Sendable(check, c, line)
    requires s.input == Client.Outgoing(check, c, line) + later
    ensures text == if ClientDispatch(line) == Exit then ExitMessage else line
    ensures Server.ReadsCommand(s, Encode(text), Client.Outgoing(check, c, line)[1..] + later)
    ensures Decode(Encode(text)) == text
    ensures ServerDispatch(text) == if ClientDispatch(line) == Exit then Unknown else ClientDispatch(line)
  {
    var tok := Encode(c.token);
    var out := Client.Outgoing(check, c, line);
    text := SentText(line);
    assert |out| >= 1 && out[0] == Frame(Encode(text), tok) by {
      Client.OutgoingFirst(check, c, line);
    }
    TokenWire(c.token);
    FirstMessageRead(s, out, Encode(text), later);
  }

  /** A connection whose input starts with a framed message reads that
      message first and leaves the rest. */
  lemma FirstMessageRead(s: Server.Connection, out: seq<Chunk>, m: seq<byte>, later: seq<Chunk>)
    requires s.status == Server.Serving && |Encode(s.token)| == TailLength
    requires |out| >= 1 && out[0] == Frame(m, Encode(s.token)) && s.input == out + later
    ensures Server.ReadsCommand(s, m, out[1..] + later)
  {
    assert s.input == [out[0]] + (out[1..] + later);
    RoundTrip(m, Encode(s.token), out[1..] + later);
  }

  /** The text of the first message the client sends for a recognised line,
      and how the server dispatches it. */
  lemma SentText(line: string) returns (text: string)
    requires IsAscii(line) && ClientDispatch(line) != Unknown
    ensures text == if ClientDispatch(line) == Exit then ExitMessage else line
    ensures Decode(Encode(text)) == text
    ensures ServerDispatch(text) == if ClientDispatch(line) == Exit then Unknown else ClientDispatch(line)
  {
    DispatchAgrees(line);
    text := if ClientDispatch(line) == Exit then ExitMessage else line;
    assert IsAscii(ExitMessage);
    DecodeEncode(text);
  }

  /** The server reads exactly the messages the client sent for a command:
      the command line as typed, and for `ul` the file's bytes. It answers
      with as many messages as the command has replies, and `exit` closes
      the connection without an answer. An uploaded file arrives intact. */
  lemma ServerReadsRequests(policy: Server.CdFailure, list: Server.Lister, check: Client.UlCheck,
                            s: Server.Connection, c: Client.Terminal, line: string, later: seq<Chunk>)
    requires InStep(s, c) && Sendable(check, c, line)
    requires s.input == Client.Outgoing(check, c, line) + later
    ensures var r := Server.Step(policy, list, s);
      && r.input == later
      && (r.status == Server.Serving ==> |r.sent| == |s.sent| + Replies(ClientDispatch(line)))
      && (ClientDispatch(line) == Exit ==> r.status == Server.Closed && r.sent == s.sent && r.fs == s.fs)
    ensures var r := Server.Step(policy, list, s); var name := Argument(line);
      ClientDispatch(line) == Ul && r.status == Server.Serving ==>
        && Resolve(s.cwd.value, name) in r.fs.files
        && r.fs.files[Resolve(s.cwd.value, name)] == c.local.files[Resolve(c.cwd, name)]
  {
    var out := Client.Outgoing(check, c, line);
    var text := CommandArrives(check, s, c, line, later);
    var rest := out[1..] + later;
    Server.StepCounts(policy, list, s, Encode(text), rest);
    if ClientDispatch(line) == Ul {
      var tok := Encode(c.token);
      var data := c.local.files[Resolve(c.cwd, Argument(line))];
      assert rest == [Frame(data, tok)] + later;
      RoundTrip(data, tok, later);
      Server.UlStores(policy, list, s, Encode(text), rest, data, later);
    } else {
      assert rest == later;
    }
  }

  /** The client reads exactly the server's replies: for `dl` the file's
      bytes, which it stores under the argument's name, and in every case
      the snapshot, which it prints. */
  lemma ClientReadsReplies(check: Client.UlCheck, c: Client.Terminal, line: string,
                           replies: seq<seq<byte>>, later: seq<Chunk>)
    requires c.status == Client.Active
    requires Sendable(check, c, line) && ClientDispatch(line) != Exit
    requires |replies| == Replies(ClientDispatch(line))
    requires forall i :: 0 <= i < |replies| ==> Terminates(replies[i], Encode(c.token))
    requires c.input == replies + later
    requires ClientDispatch(line) == Dl ==>
      WriteFile(c.local, Resolve(c.cwd, Argument(line)), Head(replies[0])).Some?
    ensures var r := Client.Issue(check, c, line);
      && r.status == Client.Active && r.input == later
      && r.shown == c.shown + [Decode(Head(replies[|replies| - 1]))]
    ensures var r := Client.Issue(check, c, line); var p := Resolve(c.cwd, Argument(line));
      ClientDispatch(line) == Dl ==> p in r.local.files && r.local.files[p] == Head(replies[0])
  {
    if ClientDispatch(line) == Dl {
      ClientReadsDl(check, c, line, replies, later);
    } else {
      assert replies == [replies[0]];
      ClientReadsSnapshot(check, c, line, replies[0], later);
    }
  }

  lemma ClientReadsDl(check: Client.UlCheck, c: Client.Terminal, line: string,
                      replies: seq<seq<byte>>, later: seq<Chunk>)
    requires c.status == Client.Active && ClientDispatch(line) == Dl && |replies| == 2
    requires forall i :: 0 <= i < |replies| ==> Terminates(replies[i], Encode(c.token))
    requires c.input == replies + later
    requires WriteFile(c.local, Resolve(c.cwd, Argument(line)), Head(replies[0])).Some?
    ensures var r := Client.Issue(check, c, line);
      && r.status == Client.Active && r.input == later
      && r.shown == c.shown + [Decode(Head(replies[1]))]
    ensures var r := Client.Issue(check, c, line); var p := Resolve(c.cwd, Argument(line));
      p in r.local.files && r.local.files[p] == Head(replies[0])
  {
    var tok := Encode(c.token);
    var first, last := replies[0], replies[1];
    assert Terminates(first, tok) && Terminates(last, tok);
    assert c.input == [first] + ([last] + later);
    ReceiveOne(first, tok, [last] + later);
    ReceiveOne(last, tok, later);
    Client.DlStoresReply(check, c, line, Head(first), [last] + later);
  }

  lemma ClientReadsSnapshot(check: Client.UlCheck, c: Client.Terminal, line: string,
                            reply: seq<byte>, later: seq<Chunk>)
    requires c.status == Client.Active && Sendable(check, c, line)
    requires ClientDispatch(line) in {Cd, Mkdir, Rm, Ul}
    requires Terminates(reply, Encode(c.token))
    requires c.input == [reply] + later
    ensures var r := Client.Issue(check, c, line);
      && r.status == Client.Active && r.input == later
      && r.shown == c.shown + [Decode(Head(reply))]
  {
    ReceiveOne(reply, Encode(c.token), later);
    if ClientDispatch(line) == Ul {
      Client.UlUploads(check, c, line);
    } else {
      Client.SimpleCommand(check, c, line, Head(reply), later);
    }
  }

  /** One command, start to finish: the server reads exactly what the
      client sent, the client reads exactly what the server answered and
      prints the new snapshot, and the two are left in step for the next
      command. */
  lemma RoundAgrees(policy: Server.CdFailure, list: Server.Lister, check: Client.UlCheck,
                    s: Server.Connection, c: Client.Terminal, line: string,
                    laterS: seq<Chunk>, laterC: seq<Chunk>)
    requires InStep(s, c) && Sendable(check, c, line) && ClientDispatch(line) != Exit
    requires s.input == Client.Outgoing(check, c, line) + laterS
    requires Server.Step(policy, list, s).status == Server.Serving
    requires c.input == Server.Step(policy, list, s).sent[|s.sent|..] + laterC
    requires ClientDispatch(line) == Dl ==>
      WriteFile(c.local, Resolve(c.cwd, Argument(line)), Head(Server.Step(policy, list, s).sent[|s.sent|])).Some?
    ensures var r := Server.Step(policy, list, s); var d := Client.Issue(check, c, line);
      && r.input == laterS && d.input == laterC
      && InStep(r, d)
      && d.shown == c.shown + [Decode(Encode(SnapshotText(list, r.fs, r.cwd.value)))]
  {
    var r := Server.Step(policy, list, s);
    ServerReadsRequests(policy, list, check, s, c, line, laterS);
    TokenWire(c.token);
    NewReplies(list, s, r);
    ClientAfterServer(list, check, c, line, r, r.sent[|s.sent|..], laterC);
  }

  /** The messages a serving step added, seen as the reply list: each is
      framed, and the last is the snapshot. */
  lemma NewReplies(list: Server.Lister, s: Server.Connection, r: Server.Connection)
    requires |s.token| == TailLength && Server.NewFramed(s, r)
    requires r.cwd.Some? && |r.sent| > |s.sent|
    requires r.sent[|r.sent| - 1] == Server.SnapshotMessage(list, r.fs, r.cwd.value, r.token)
    ensures var replies := r.sent[|s.sent|..];
      && |replies| == |r.sent| - |s.sent|
      && (forall i :: 0 <= i < |replies| ==> Terminates(replies[i], Encode(s.token)))
      && replies[|replies| - 1] == Server.SnapshotMessage(list, r.fs, r.cwd.value, r.token)
  {
    var replies := r.sent[|s.sent|..];
    forall i | 0 <= i < |replies|
      ensures Terminates(replies[i], Encode(s.token))
    {
      assert replies[i] == r.sent[|s.sent| + i];
    }
  }

  /** The client's half of a round, given what the server did. */
  lemma ClientAfterServer(list: Server.Lister, check: Client.UlCheck, c: Client.Terminal, line: string,
                          r: Server.Connection, replies: seq<seq<byte>>, laterC: seq<Chunk>)
    requires c.status == Client.Active && Sendable(check, c, line) && ClientDispatch(line) != Exit
    requires r.status == Server.Serving && r.token == c.token && ValidToken(c.token) && r.cwd.Some?
    requires |replies| == Replies(ClientDispatch(line))
    requires forall i :: 0 <= i < |replies| ==> Terminates(replies[i], Encode(c.token))
    requires replies[|replies| - 1] == Server.SnapshotMessage(list, r.fs, r.cwd.value, r.token)
    requires c.input == replies + laterC
    requires ClientDispatch(line) == Dl ==>
      WriteFile(c.local, Resolve(c.cwd, Argument(line)), Head(replies[0])).Some?
    ensures var d := Client.Issue(check, c, line);
      && d.input == laterC && InStep(r, d)
      && d.shown == c.shown + [Decode(Encode(SnapshotText(list, r.fs, r.cwd.value)))]
  {
    TokenWire(c.token);
    ClientReadsReplies(check, c, line, replies, laterC);
    FrameTerminates(Encode(SnapshotText(list, r.fs, r.cwd.value)), Encode(c.token));
  }

  // -------------------------------------------------------------------
  // Whole commands, both ends.

  /** `exit`: the server reads the exit message, closes without a reply and
      leaves its files alone; the client stops. */
  lemma ExitCloses(policy: Server.CdFailure, list: Server.Lister, check: Client.UlCheck,
                   s: Server.Connection, c: Client.Terminal, line: string, laterS: seq<Chunk>)
    requires InStep(s, c) && IsAscii(line) && ClientDispatch(line) == Exit
    requires s.input == Client.Outgoing(check, c, line) + laterS
    ensures Client.Issue(check, c, line).status == Client.Exited
    ensures var r := Server.Step(policy, list, s);
      r.status == Server.Closed && r.sent == s.sent && r.fs == s.fs && r.input == laterS
  {
    ServerReadsRequests(policy, list, check, s, c, line, laterS);
  }

  /** As written, a `cd` to a missing directory kills the server thread
      before it answers, and the client waits for an answer forever. */
  lemma FailedCdHangsClient(list: Server.Lister, check: Client.UlCheck,
                            s: Server.Connection, c: Client.Terminal, line: string, laterS: seq<Chunk>)
    requires InStep(s, c) && IsAscii(line) && ClientDispatch(line) == Cd
    requires s.input == Client.Outgoing(check, c, line) + laterS
    requires Resolve(s.cwd.value, Argument(line)) !in s.fs.dirs
    ensures var r := Server.Step(Server.StoresNone, list, s);
      r.status == Server.Crashed && r.sent == s.sent
    ensures var r := Server.Step(Server.StoresNone, list, s);
      Client.Issue(check, c.(input := r.sent[|s.sent|..]), line).status == Client.Blocked
  {
    var text := CommandArrives(check, s, c, line, laterS);
    var rest := Client.Outgoing(check, c, line)[1..] + laterS;
    Server.CdFailureCrashes(list, s, Encode(text), rest, s.cwd.value);
  }

  /** Corrected, the same `cd` leaves the server where it was and the
      client prints the unchanged directory. */
  lemma FailedCdKeepsDirectory(list: Server.Lister, check: Client.UlCheck,
                               s: Server.Connection, c: Client.Terminal, line: string,
                               laterS: seq<Chunk>, laterC: seq<Chunk>)
    requires InStep(s, c) && IsAscii(line) && ClientDispatch(line) == Cd
    requires s.input == Client.Outgoing(check, c, line) + laterS
    requires Resolve(s.cwd.value, Argument(line)) !in s.fs.dirs && s.cwd.value in s.fs.dirs
    requires c.input == [Server.SnapshotMessage(list, s.fs, s.cwd.value, s.token)] + laterC
    ensures var r := Server.Step(Server.KeepsDirectory, list, s);
      && r.status == Server.Serving && r.cwd == s.cwd && r.fs == s.fs
      && r.sent == s.sent + [Server.SnapshotMessage(list, s.fs, s.cwd.value, s.token)]
    ensures var d := Client.Issue(check, c, line);
      && d.status == Client.Active && d.input == laterC
      && d.shown == c.shown + [Decode(Encode(SnapshotText(list, s.fs, s.cwd.value)))]
  {
    var text := CommandArrives(check, s, c, line, laterS);
    var rest := Client.Outgoing(check, c, line)[1..] + laterS;
    Server.CdFailureStays(list, s, Encode(text), rest, s.cwd.value);
    RoundAgrees(Server.KeepsDirectory, list, check, s, c, line, laterS, laterC);
  }

  /** `iterdir` lists every directory completely. */
  ghost predicate FaithfulLister(list: Server.Lister) {
    forall fs: FileSystem, p: Path :: Lists(fs, p, list(fs, p))
  }

  /** `mkdir name`: the directory is created and the snapshot the client
      prints next lists it as `-- name`. */
  lemma MkdirShowsNewDirectory(policy: Server.CdFailure, list: Server.Lister, check: Client.UlCheck,
                               s: Server.Connection, c: Client.Terminal, name: string,
                               laterS: seq<Chunk>, laterC: seq<Chunk>)
    requires InStep(s, c) && FaithfulLister(list)
    requires ValidName(name) && NoSpace(name) && IsAscii(name)
    requires s.cwd.value in s.fs.dirs && !UnderFile(s.fs, s.cwd.value + [name])
    requires s.input == Client.Outgoing(check, c, "mkdir " + name) + laterS
    requires c.input == Server.Step(policy, list, s).sent[|s.sent|..] + laterC
    ensures var r := Server.Step(policy, list, s);
      && s.cwd.value + [name] in r.fs.dirs
      && name in list(r.fs, s.cwd.value).dirs
    ensures var r := Server.Step(policy, list, s); var d := Client.Issue(check, c, "mkdir " + name);
      && d.status == Client.Active
      && d.shown[|d.shown| - 1] == Decode(Encode(SnapshotText(list, r.fs, s.cwd.value)))
      && IsInfix(Snapshot.Marker + name, d.shown[|d.shown| - 1])
  {
    var line := "mkdir " + name;
    MkdirLine(name);
    MkdirServerSide(policy, list, check, s, c, name, laterS);
    RoundAgrees(policy, list, check, s, c, line, laterS, laterC);
    var r := Server.Step(policy, list, s);
    ListedInSnapshot(list, r.fs, s.cwd.value, name);
  }

  /** `mkdir name` is a valid ASCII `mkdir` line whose argument is `name`. */
  lemma MkdirLine(name: string)
    requires NoSpace(name) && IsAscii(name) && name != ""
    ensures var line := "mkdir " + name;
      IsAscii(line) && ClientDispatch(line) == Mkdir && Argument(line) == name
  {
    var line := "mkdir " + name;
    assert line == "mkdir" + " " + name;
    ArgumentOfWord("mkdir", name);
    assert line[..5] == "mkdir";
    assert IsAscii("mkdir ");
    AsciiAppend("mkdir ", name);
  }

  lemma MkdirServerSide(policy: Server.CdFailure, list: Server.Lister, check: Client.UlCheck,
                        s: Server.Connection, c: Client.Terminal, name: string, laterS: seq<Chunk>)
    requires InStep(s, c) && ValidName(name) && NoSpace(name) && IsAscii(name)
    requires s.cwd.value in s.fs.dirs && !UnderFile(s.fs, s.cwd.value + [name])
    requires s.input == Client.Outgoing(check, c, "mkdir " + name) + laterS
    ensures var r := Server.Step(policy, list, s);
      r.status == Server.Serving && r.cwd == s.cwd && s.cwd.value + [name] in r.fs.dirs
  {
    var line := "mkdir " + name;
    MkdirLine(name);
    var text := CommandArrives(check, s, c, line, laterS);
    MkdirStep(policy, list, s, Encode(text), Client.Outgoing(check, c, line)[1..] + laterS, name);
  }

  lemma MkdirStep(policy: Server.CdFailure, list: Server.Lister, s: Server.Connection,
                  m: seq<byte>, rest: seq<Chunk>, name: string)
    requires Server.ReadsCommand(s, m, rest) && ServerDispatch(Decode(m)) == Mkdir
    requires Argument(Decode(m)) == name && ValidName(name) && s.cwd.Some?
    requires s.cwd.value in s.fs.dirs && !UnderFile(s.fs, s.cwd.value + [name])
    ensures var r := Server.Step(policy, list, s);
      r.status == Server.Serving && r.cwd == s.cwd && s.cwd.value + [name] in r.fs.dirs
  {
    var cwd := s.cwd.value;
    var p := cwd + [name];
    ResolveChild(cwd, name);
    Server.MkdirCreates(policy, list, s, m, rest, cwd);
    assert p[..|p|] == p;
  }

  /** A subdirectory of the reported directory is named in the snapshot as
      the client prints it. */
  lemma ListedInSnapshot(list: Server.Lister, fs: FileSystem, cwd: Path, name: string)
    requires FaithfulLister(list) && cwd + [name] in fs.dirs && IsAscii(name)
    ensures name in list(fs, cwd).dirs
    ensures IsInfix(Snapshot.Marker + name, Decode(Encode(SnapshotText(list, fs, cwd))))
  {
    ListedInText(list, fs, cwd, name);
    MarkedNameAscii(name);
    InfixSurvivesWire(Snapshot.Marker + name, SnapshotText(list, fs, cwd));
  }

  lemma ListedInText(list: Server.Lister, fs: FileSystem, cwd: Path, name: string)
    requires FaithfulLister(list) && cwd + [name] in fs.dirs
    ensures name in list(fs, cwd).dirs
    ensures IsInfix(Snapshot.Marker + name, SnapshotText(list, fs, cwd))
  {
    var p := cwd + [name];
    var l := list(fs, cwd);
    assert Lists(fs, cwd, l);
    assert p[..|cwd|] == cwd && p[|cwd|] == name;
    assert name in l.dirs;
    Snapshot.ListsEveryName(Render(cwd), l.dirs, l.files);
  }

  lemma MarkedNameAscii(name: string)
    requires IsAscii(name)
    ensures IsAscii(Snapshot.Marker + name)
  {
    assert IsAscii(Snapshot.Marker);
    AsciiAppend(Snapshot.Marker, name);
  }

  /** `dl`: the client's copy is the server's file byte for byte, and when
      the server has no such file, the copy holds the server's error text. */
  lemma DlFetchesFile(policy: Server.CdFailure, list: Server.Lister, check: Client.UlCheck,
                      s: Server.Connection, c: Client.Terminal, line: string,
                      laterS: seq<Chunk>, laterC: seq<Chunk>)
    requires InStep(s, c) && IsAscii(line) && ClientDispatch(line) == Dl
    requires var sp := Resolve(s.cwd.value, Argument(line));
      s.cwd.value in s.fs.dirs && (sp in s.fs.files || sp !in s.fs.dirs)
    requires var cp := Resolve(c.cwd, Argument(line));
      cp != [] && cp !in c.local.dirs && Parent(cp) in c.local.dirs
    requires s.input == Client.Outgoing(check, c, line) + laterS
    requires c.input == Server.Step(policy, list, s).sent[|s.sent|..] + laterC
    ensures var d := Client.Issue(check, c, line); var cp := Resolve(c.cwd, Argument(line));
      var sp := Resolve(s.cwd.value, Argument(line));
      && d.status == Client.Active && d.input == laterC
      && cp in d.local.files
      && (sp in s.fs.files ==> d.local.files[cp] == s.fs.files[sp])
      && (sp !in s.fs.files ==> d.local.files[cp] == Encode(Server.NotFound))
  {
    var tok := Encode(c.token);
    var sp := Resolve(s.cwd.value, Argument(line));
    var payload := if sp in s.fs.files then s.fs.files[sp] else Encode(Server.NotFound);
    var r := Server.Step(policy, list, s);
    DlServerSide(policy, list, check, s, c, line, laterS);
    var replies := r.sent[|s.sent|..];
    TokenWire(c.token);
    FrameTerminates(payload, tok);
    ClientReadsDl(check, c, line, replies, laterC);
  }

  /** The server's half of `dl`: the file (or the error text), then the
      snapshot, both framed. */
  lemma DlServerSide(policy: Server.CdFailure, list: Server.Lister, check: Client.UlCheck,
                     s: Server.Connection, c: Client.Terminal, line: string, laterS: seq<Chunk>)
    requires InStep(s, c) && IsAscii(line) && ClientDispatch(line) == Dl
    requires var sp := Resolve(s.cwd.value, Argument(line));
      s.cwd.value in s.fs.dirs && (sp in s.fs.files || sp !in s.fs.dirs)
    requires s.input == Client.Outgoing(check, c, line) + laterS
    ensures var r := Server.Step(policy, list, s); var sp := Resolve(s.cwd.value, Argument(line));
      && |r.sent| == |s.sent| + 2
      && r.sent[|s.sent|..][0] == Frame(if sp in s.fs.files then s.fs.files[sp] else Encode(Server.NotFound), Encode(s.token))
      && Terminates(r.sent[|s.sent|..][1], Encode(s.token))
  {
    var text := CommandArrives(check, s, c, line, laterS);
    var rest := Client.Outgoing(check, c, line)[1..] + laterS;
    Server.DlSends(policy, list, s, Encode(text), rest, s.cwd.value);
    TokenWire(c.token);
    var r := Server.Step(policy, list, s);
    assert r.sent[|s.sent|..][1] == r.sent[|s.sent| + 1];
  }
}

=== FILE: server.dfy ===
/** One server connection (`ClientThread.run` and the `handle_*` helpers).

    The connection is a state: the session token, `current_dir`, the server's
    file system, the chunks still to be read from the socket, and every
    `sendall` made so far. An exception that escapes `run` ends the thread;
    the model records it as status `Crashed`, after which nothing more is
    read or sent. */
module Server {
  import opened Wrappers
  import opened Bytes
  import opened Framing
  import opened Paths
  import opened Disk
  import opened Commands
  import Snapshot

  /** What `current_dir` becomes when `cd` names something that is not a
      directory: `handle_cd` returns `None` and `run` stores it (as written),
      or the directory stays what it was (corrected: the `except` branches
      of `handle_cd` print a message and carry on, so the author meant the
      session to survive). */
  datatype CdFailure = StoresNone | KeepsDirectory

  /** `Path.iterdir` in whatever order the operating system yields entries. */
  type Lister = (FileSystem, Path) -> Listing

  datatype Status = Serving | Closed | Blocked | Crashed

  datatype Connection = Connection(
    status: Status,
    token: string,
    cwd: Option<Path>,
    fs: FileSystem,
    input: seq<Chunk>,
    sent: seq<seq<byte>>)

  /** The text `handle_dl` sends in place of a missing file. */
  const NotFound := "The given file does not exists in server."

  /** `get_working_directory_info(current_dir)`: `Path(None)` raises, and so
      does `iterdir` on anything but an existing directory. */
  function DirInfo(fs: FileSystem, cwd: Option<Path>, list: Lister): (r: Option<string>)
    ensures r.Some? <==> cwd.Some? && cwd.value in fs.dirs
    ensures r.Some? ==> Snapshot.Header(Render(cwd.value)) <= r.value
  {
    if cwd.None? || cwd.value !in fs.dirs then None
    else
      var l := list(fs, cwd.value);
      var info := Snapshot.Render(Render(cwd.value), l.dirs, l.files);
      assert info == Snapshot.Header(Render(cwd.value)) + (Snapshot.Section(l.dirs) + Snapshot.Section(l.files));
      Some(info)
  }

  /** `handle_cd`: `os.chdir` succeeds exactly on a directory, and the new
      directory is the argument resolved against the current one. */
  function HandleCd(fs: FileSystem, cwd: Path, arg: string): (r: Option<Path>)
    ensures r.Some? <==> Resolve(cwd, arg) in fs.dirs
    ensures r.Some? ==> r.value == Resolve(cwd, arg) && r.value in fs.dirs
    ensures ValidPath(cwd) && r.Some? ==> ValidPath(r.value)
  {
    var p := Resolve(cwd, arg);
    if p in fs.dirs then Some(p) else None
  }

  /** `handle_mkdir`: nothing happens when the path exists; otherwise
      `os.makedirs` creates it and its missing ancestors, and raises when
      one of them is a file. */
  function HandleMkdir(fs: FileSystem, cwd: Path, arg: string): (r: Option<FileSystem>)
    ensures r.None? <==> !Exists(fs, Resolve(cwd, arg)) && UnderFile(fs, Resolve(cwd, arg))
    ensures r.Some? ==> Exists(r.value, Resolve(cwd, arg))
    ensures r.Some? ==> r.value.files == fs.files && fs.dirs <= r.value.dirs
    ensures r.Some? && !Exists(fs, Resolve(cwd, arg)) ==>
      forall k :: 0 <= k <= |Resolve(cwd, arg)| ==> Resolve(cwd, arg)[..k] in r.value.dirs
    ensures r.Some? ==> r.value.dirs <= fs.dirs + Ancestors(Resolve(cwd, arg))
    ensures Exists(fs, Resolve(cwd, arg)) ==> r == Some(fs)
  {
    var p := Resolve(cwd, arg);
    assert p[..|p|] == p;
    if Exists(fs, p) then Some(fs) else MakeDirs(fs, p)
  }

  /** `handle_rm`: a file is removed, a directory is removed with all it
      holds, and a missing path leaves everything as it was. */
  function HandleRm(fs: FileSystem, cwd: Path, arg: string): (r: FileSystem)
    ensures Resolve(cwd, arg) !in r.files
    ensures Resolve(cwd, arg) !in fs.files ==> Resolve(cwd, arg) !in r.dirs
    ensures !Exists(fs, Resolve(cwd, arg)) ==> r == fs
    ensures Resolve(cwd, arg) in fs.files ==>
      r.dirs == fs.dirs && r.files == fs.files - {Resolve(cwd, arg)}
    ensures r.dirs <= fs.dirs
    ensures forall d :: d in fs.dirs && !(Resolve(cwd, arg) <= d) ==> d in r.dirs
    ensures forall f :: f in fs.files && !(Resolve(cwd, arg) <= f) ==> f in r.files && r.files[f] == fs.files[f]
    ensures r.files.Keys <= fs.files.Keys
    ensures Resolve(cwd, arg) in fs.dirs && Resolve(cwd, arg) !in fs.files ==>
      && (forall d :: Resolve(cwd, arg) <= d ==> d !in r.dirs)
      && (forall f :: Resolve(cwd, arg) <= f ==> f !in r.files)
  {
    var p := Resolve(cwd, arg);
    if !Exists(fs, p) then fs
    else if p in fs.files then fs.(files := fs.files - {p})
    else RemoveTree(fs, p)
  }

  /** `handle_ul` once the file's bytes have arrived: `open(..., "wb")`
      creates or replaces the file with exactly those bytes. */
  function HandleUl(fs: FileSystem, cwd: Path, arg: string, data: seq<byte>): (r: Option<FileSystem>)
    ensures r.Some? <==> Resolve(cwd, arg) != [] && Resolve(cwd, arg) !in fs.dirs && Parent(Resolve(cwd, arg)) in fs.dirs
    ensures r.Some? ==> Resolve(cwd, arg) in r.value.files && r.value.files[Resolve(cwd, arg)] == data
    ensures r.Some? ==> r.value.dirs == fs.dirs
    ensures r.Some? ==> forall f :: f != Resolve(cwd, arg) ==>
      && (f in r.value.files <==> f in fs.files)
      && (f in fs.files ==> r.value.files[f] == fs.files[f])
  {
    WriteFile(fs, Resolve(cwd, arg), data)
  }

  /** `handle_dl`: the bytes it sends. A file goes out verbatim followed by
      the token, a missing path as the error text; reading a directory
      raises. */
  function DlReply(fs: FileSystem, cwd: Path, arg: string, token: string): (r: Option<seq<byte>>)
    ensures r.None? <==> Resolve(cwd, arg) in fs.dirs && Resolve(cwd, arg) !in fs.files
    ensures Resolve(cwd, arg) in fs.files ==> r == Some(Frame(fs.files[Resolve(cwd, arg)], Encode(token)))
    ensures !Exists(fs, Resolve(cwd, arg)) ==> r == Some(Frame(Encode(NotFound), Encode(token)))
    ensures r.Some? && |token| == TailLength ==> Terminates(r.value, Encode(token))
  {
    var p := Resolve(cwd, arg);
    if Exists(fs, p) then
      match ReadFile(fs, p)
      case None => None
      case Some(data) => Some(Frame(data, Encode(token)))
    else
      Some(Frame(Encode(NotFound), Encode(token)))
  }

  /** The bytes of the snapshot of directory `p`, framed with the token. */
  function SnapshotMessage(list: Lister, fs: FileSystem, p: Path, token: string): seq<byte> {
    var l := list(fs, p);
    Frame(Encode(Snapshot.Render(Render(p), l.dirs, l.files)), Encode(token))
  }

  /** Every message sent since `s` ends with the token. */
  predicate NewFramed(s: Connection, r: Connection) {
    forall i :: |s.sent| <= i < |r.sent| ==> Terminates(r.sent[i], Encode(s.token))
  }

  /** The snapshot `run` sends after the handshake and after every command. */
  function Report(list: Lister, s: Connection): (r: Connection)
    requires s.status == Serving
    ensures |s.token| == TailLength ==> NewFramed(s, r)
    ensures r.input == s.input && r.fs == s.fs && r.cwd == s.cwd
    ensures r.status == Serving <==> s.cwd.Some? && s.cwd.value in s.fs.dirs
    ensures r.status != Serving ==> r.status == Crashed && r.sent == s.sent
    ensures r.status == Serving ==>
      r.sent == s.sent + [SnapshotMessage(list, s.fs, s.cwd.value, s.token)]
  {
    match DirInfo(s.fs, s.cwd, list)
    case None => s.(status := Crashed)
    case Some(info) => s.(sent := s.sent + [Frame(Encode(info), Encode(s.token))])
  }

  /** The body of one `if cmd.startswith(...)` branch, before the snapshot. */
  function Perform(policy: CdFailure, s: Connection, c: Command, cwd: Path, arg: string): (r: Connection)
    requires s.status == Serving && c != Exit && c != Unknown
    ensures |s.token| == TailLength ==> NewFramed(s, r)
    ensures |r.input| <= |s.input|
    ensures c != Dl ==> r.sent == s.sent
    ensures c != Ul ==> r.input == s.input
    ensures c == Cd || c == Dl ==> r.fs == s.fs
    ensures c != Cd ==> r.cwd == s.cwd
    ensures r.token == s.token
    ensures |s.sent| <= |r.sent| && r.sent[..|s.sent|] == s.sent
  {
    match c
    case Cd =>
      (match HandleCd(s.fs, cwd, arg)
       case Some(p) => s.(cwd := Some(p))
       case None => if policy == StoresNone then s.(cwd := None) else s)
    case Mkdir =>
      (match HandleMkdir(s.fs, cwd, arg)
       case None => s.(status := Crashed)
       case Some(fs') => s.(fs := fs'))
    case Rm => s.(fs := HandleRm(s.fs, cwd, arg))
    case Ul =>
      (match Receive(s.input, Encode(s.token))
       case NoMessage => s.(status := Blocked, input := [])
       case Received(data, rest) =>
         match HandleUl(s.fs, cwd, arg, data)
         case None => s.(status := Crashed, input := rest)
         case Some(fs') => s.(fs := fs', input := rest))
    case Dl =>
      (match DlReply(s.fs, cwd, arg, s.token)
       case None => s.(status := Crashed)
       case Some(b) => s.(sent := s.sent + [b]))
  }

  /** What `run` does with one decoded command line: close on anything it
      does not recognise, otherwise run the handler and send the snapshot. */
  function Execute(policy: CdFailure, list: Lister, s: Connection, cmd: string): (r: Connection)
    requires s.status == Serving
    ensures r.status == Serving ==>
      && r.cwd.Some? && r.cwd.value in r.fs.dirs && |r.sent| > |s.sent|
      && r.sent[|r.sent| - 1] == SnapshotMessage(list, r.fs, r.cwd.value, r.token)
    ensures |s.token| == TailLength ==> NewFramed(s, r)
    ensures |r.input| <= |s.input|
    ensures r.token == s.token
    ensures |s.sent| <= |r.sent| && r.sent[..|s.sent|] == s.sent
    ensures ServerDispatch(cmd) == Unknown ==> r == s.(status := Closed)
  {
    var c := ServerDispatch(cmd);
    if c == Unknown then s.(status := Closed)
    else if s.cwd.None? then s.(status := Crashed)   // os.path.join(None, ...) raises
    else
      var t := Perform(policy, s, c, s.cwd.value, Argument(cmd));
      if t.status != Serving then t else Report(list, t)
  }

  /** One iteration of the `while True` loop. */
  function Step(policy: CdFailure, list: Lister, s: Connection): (r: Connection)
    requires s.status == Serving
    ensures r.status == Serving ==>
      && r.cwd.Some? && r.cwd.value in r.fs.dirs && |r.sent| > |s.sent|
      && r.sent[|r.sent| - 1] == SnapshotMessage(list, r.fs, r.cwd.value, r.token)
    ensures |s.token| == TailLength ==> NewFramed(s, r)
    ensures r.status == Serving ==> |r.input| < |s.input|
    ensures r.token == s.token
    ensures |s.sent| <= |r.sent| && r.sent[..|s.sent|] == s.sent
  {
    match Receive(s.input, Encode(s.token))
    case NoMessage => s.(status := Blocked, input := [])
    case Received(m, rest) => Execute(policy, list, s.(input := rest), Decode(m))
  }

  /** The loop, run until the connection closes, crashes, or waits for a
      message that never comes. */
  function Run(policy: CdFailure, list: Lister, s: Connection): (r: Connection)
    ensures r.status != Serving
    ensures r.token == s.token
    ensures s.status != Serving ==> r == s
    decreases |s.input|
  {
    if s.status != Serving then s
    else
      var t := Step(policy, list, s);
      if t.status != Serving then t else Run(policy, list, t)
  }

  /** The start of `run`: send the token, then the snapshot of the server
      process's working directory. */
  function Start(list: Lister, token: string, home: Path, fs: FileSystem, input: seq<Chunk>): (r: Connection)
    ensures |r.sent| >= 1 && r.sent[0] == Encode(token) && r.token == token && r.input == input
    ensures r.status == Serving <==> home in fs.dirs
    ensures r.status == Serving ==> |r.sent| == 2 && r.cwd == Some(home)
    ensures r.status == Serving ==> r.sent[1] == SnapshotMessage(list, fs, home, token)
    ensures r.status != Serving ==> r.status == Crashed && |r.sent| == 1
  {
    Report(list, Connection(Serving, token, Some(home), fs, input, [Encode(token)]))
  }

  /** A whole connection, from accept to the end of the thread. */
  function Serve(policy: CdFailure, list: Lister, token: string, home: Path, fs: FileSystem, input: seq<Chunk>): (r: Connection)
    ensures r.status != Serving
    ensures |r.sent| >= 1 && r.sent[0] == Encode(token)
  {
    var s := Start(list, token, home, fs, input);
    var r := Run(policy, list, s);
    RunExtends(policy, list, s);
    r
  }

  // -------------------------------------------------------------------
  // Properties of the connection.

  /** The server only ever appends to what it has sent. */
  lemma {:induction false} RunExtends(policy: CdFailure, list: Lister, s: Connection)
    ensures |s.sent| <= |Run(policy, list, s).sent|
    ensures Run(policy, list, s).sent[..|s.sent|] == s.sent
    decreases |s.input|
  {
    if s.status == Serving {
      var t := Step(policy, list, s);
      if t.status == Serving {
        RunExtends(policy, list, t);
        var r := Run(policy, list, t);
        assert r.sent[..|t.sent|][..|s.sent|] == r.sent[..|s.sent|];
      }
    }
  }

  /** Every message after the token itself ends with the token: the
      snapshots, the files `dl` sends and the error text alike. */
  predicate Framed(s: Connection) {
    forall i :: 1 <= i < |s.sent| ==> Terminates(s.sent[i], Encode(s.token))
  }

  lemma StepFramed(policy: CdFailure, list: Lister, s: Connection)
    requires s.status == Serving && |s.token| == TailLength && Framed(s)
    ensures Framed(Step(policy, list, s))
  {
    var r := Step(policy, list, s);
    forall i | 1 <= i < |s.sent|
      ensures Terminates(r.sent[i], Encode(s.token))
    {
      assert r.sent[i] == r.sent[..|s.sent|][i];
    }
  }

  /** The invariant holds for the whole connection. */
  lemma {:induction false} RunFramed(policy: CdFailure, list: Lister, s: Connection)
    requires |s.token| == TailLength && Framed(s)
    ensures Framed(Run(policy, list, s))
    decreases |s.input|
  {
    if s.status == Serving {
      StepFramed(policy, list, s);
      var t := Step(policy, list, s);
      if t.status == Serving {
        RunFramed(policy, list, t);
      }
    }
  }

  /** A ten-character token makes every message of the connection framed. */
  lemma ServeFramed(policy: CdFailure, list: Lister, token: string, home: Path, fs: FileSystem, input: seq<Chunk>)
    requires |token| == TailLength
    ensures Framed(Serve(policy, list, token, home, fs, input))
  {
    var s := Start(list, token, home, fs, input);
    if s.status == Serving {
      var l := list(fs, home);
      FrameTerminates(Encode(Snapshot.Render(Render(home), l.dirs, l.files)), Encode(token));
    }
    RunFramed(policy, list, s);
  }

  // -------------------------------------------------------------------
  // One command at a time.

  /** `run` is serving and has just read the command message `m`, leaving
      the chunks `rest`. */
  predicate ReadsCommand(s: Connection, m: seq<byte>, rest: seq<Chunk>) {
    s.status == Serving && Receive(s.input, Encode(s.token)) == Received(m, rest)
  }

  /** Per command, how many messages the server sends back: the snapshot,
      and for `dl` the file before it. Anything unrecognised closes the
      connection without a reply. Every command but `ul` reads exactly its
      own message. */
  lemma StepCounts(policy: CdFailure, list: Lister, s: Connection, m: seq<byte>, rest: seq<Chunk>)
    requires ReadsCommand(s, m, rest)
    ensures var r := Step(policy, list, s);
      r.status == Serving ==> |r.sent| == |s.sent| + Replies(ServerDispatch(Decode(m)))
    ensures var r := Step(policy, list, s);
      ServerDispatch(Decode(m)) != Ul ==> r.input == rest
    ensures var r := Step(policy, list, s);
      ServerDispatch(Decode(m)) == Unknown ==> r.status == Closed && r.sent == s.sent && r.fs == s.fs
  {
    StepReplies(policy, list, s, m, rest);
    if ServerDispatch(Decode(m)) != Ul {
      StepReadsOne(policy, list, s, m, rest);
    }
    if ServerDispatch(Decode(m)) == Unknown {
      UnknownCloses(policy, list, s, m, rest);
    }
  }

  /** Anything unrecognised, the client's exit message included, closes the
      connection without a reply. */
  lemma UnknownCloses(policy: CdFailure, list: Lister, s: Connection, m: seq<byte>, rest: seq<Chunk>)
    requires ReadsCommand(s, m, rest) && ServerDispatch(Decode(m)) == Unknown
    ensures Step(policy, list, s) == s.(status := Closed, input := rest)
  {
  }

  lemma StepReplies(policy: CdFailure, list: Lister, s: Connection, m: seq<byte>, rest: seq<Chunk>)
    requires ReadsCommand(s, m, rest)
    ensures var r := Step(policy, list, s);
      r.status == Serving ==> |r.sent| == |s.sent| + Replies(ServerDispatch(Decode(m)))
  {
    var cmd := Decode(m);
    assert Step(policy, list, s) == Execute(policy, list, s.(input := rest), cmd);
  }

  lemma StepReadsOne(policy: CdFailure, list: Lister, s: Connection, m: seq<byte>, rest: seq<Chunk>)
    requires ReadsCommand(s, m, rest) && ServerDispatch(Decode(m)) != Ul
    ensures Step(policy, list, s).input == rest
  {
  }

  /** `cd` into a directory moves there and reports the new directory. */
  lemma CdMoves(policy: CdFailure, list: Lister, s: Connection, m: seq<byte>, rest: seq<Chunk>, cwd: Path)
    requires ReadsCommand(s, m, rest) && ServerDispatch(Decode(m)) == Cd && s.cwd == Some(cwd)
    requires Resolve(cwd, Argument(Decode(m))) in s.fs.dirs
    ensures var p := Resolve(cwd, Argument(Decode(m)));
      Step(policy, list, s) ==
        s.(cwd := Some(p), input := rest, sent := s.sent + [SnapshotMessage(list, s.fs, p, s.token)])
  {
  }

  /** As written: `cd` to anything but a directory stores `None`, and the
      snapshot that follows raises, so the thread dies without answering. */
  lemma CdFailureCrashes(list: Lister, s: Connection, m: seq<byte>, rest: seq<Chunk>, cwd: Path)
    requires ReadsCommand(s, m, rest) && ServerDispatch(Decode(m)) == Cd && s.cwd == Some(cwd)
    requires Resolve(cwd, Argument(Decode(m))) !in s.fs.dirs
    ensures Step(StoresNone, list, s) == s.(status := Crashed, cwd := None, input := rest)
  {
  }

  /** Corrected: a failed `cd` leaves the directory as it was and the
      client gets the usual snapshot. */
  lemma CdFailureStays(list: Lister, s: Connection, m: seq<byte>, rest: seq<Chunk>, cwd: Path)
    requires ReadsCommand(s, m, rest) && ServerDispatch(Decode(m)) == Cd && s.cwd == Some(cwd)
    requires Resolve(cwd, Argument(Decode(m))) !in s.fs.dirs && cwd in s.fs.dirs
    ensures Step(KeepsDirectory, list, s) ==
      s.(input := rest, sent := s.sent + [SnapshotMessage(list, s.fs, cwd, s.token)])
  {
  }

  /** `mkdir` leaves the path existing and the files alone, unless a file
      stands where a directory has to be created, which raises. */
  lemma MkdirCreates(policy: CdFailure, list: Lister, s: Connection, m: seq<byte>, rest: seq<Chunk>, cwd: Path)
    requires ReadsCommand(s, m, rest) && ServerDispatch(Decode(m)) == Mkdir && s.cwd == Some(cwd)
    requires cwd in s.fs.dirs
    ensures var p := Resolve(cwd, Argument(Decode(m))); var r := Step(policy, list, s);
      r.status == Serving <==> Exists(s.fs, p) || !UnderFile(s.fs, p)
    ensures var p := Resolve(cwd, Argument(Decode(m))); var r := Step(policy, list, s);
      r.status == Serving ==>
        && Exists(r.fs, p) && r.fs.files == s.fs.files && s.fs.dirs <= r.fs.dirs
        && (!Exists(s.fs, p) ==> forall k :: 0 <= k <= |p| ==> p[..k] in r.fs.dirs)
        && r.fs.dirs <= s.fs.dirs + Ancestors(p)
        && r.input == rest && r.cwd == s.cwd
        && r.sent == s.sent + [SnapshotMessage(list, r.fs, cwd, s.token)]
    ensures Step(policy, list, s).status != Serving ==> Step(policy, list, s).sent == s.sent
  {
  }

  /** `rm` of anything but the current directory or one of its ancestors
      removes the path and what is below it, keeps everything else, and
      reports the directory. */
  lemma RmRemoves(policy: CdFailure, list: Lister, s: Connection, m: seq<byte>, rest: seq<Chunk>, cwd: Path)
    requires ReadsCommand(s, m, rest) && ServerDispatch(Decode(m)) == Rm && s.cwd == Some(cwd)
    requires Valid(s.fs) && cwd in s.fs.dirs && !(Resolve(cwd, Argument(Decode(m))) <= cwd)
    ensures var p := Resolve(cwd, Argument(Decode(m))); var r := Step(policy, list, s);
      && r.status == Serving && r.input == rest && r.cwd == s.cwd
      && !Exists(r.fs, p)
      && (forall d :: p <= d ==> d !in r.fs.dirs)
      && (forall f :: p <= f ==> f !in r.fs.files)
      && (forall d :: d in s.fs.dirs && !(p <= d) ==> d in r.fs.dirs)
      && (forall f :: f in s.fs.files && !(p <= f) ==> f in r.fs.files && r.fs.files[f] == s.fs.files[f])
      && r.sent == s.sent + [SnapshotMessage(list, r.fs, cwd, s.token)]
  {
    var p := Resolve(cwd, Argument(Decode(m)));
    var fs' := HandleRm(s.fs, cwd, Argument(Decode(m)));
    RmStep(policy, list, s, m, rest, cwd);
    RmClearsSubtree(s.fs, cwd, Argument(Decode(m)));
    assert cwd in fs'.dirs;
  }

  /** In a well-formed tree nothing at or below the removed path is left,
      whether it named a file, a directory or nothing. */
  lemma RmClearsSubtree(fs: FileSystem, cwd: Path, arg: string)
    requires Valid(fs)
    ensures var p := Resolve(cwd, arg); var r := HandleRm(fs, cwd, arg);
      && (forall d :: p <= d ==> d !in r.dirs)
      && (forall f :: p <= f ==> f !in r.files)
  {
    var p := Resolve(cwd, arg);
    if p !in fs.dirs {
      NothingBelowNonDirectory(fs, p);
    }
  }

  /** An `rm` pass is the handler followed by the snapshot. */
  lemma RmStep(policy: CdFailure, list: Lister, s: Connection, m: seq<byte>, rest: seq<Chunk>, cwd: Path)
    requires ReadsCommand(s, m, rest) && ServerDispatch(Decode(m)) == Rm && s.cwd == Some(cwd)
    ensures Step(policy, list, s) == Report(list, s.(input := rest, fs := HandleRm(s.fs, cwd, Argument(Decode(m)))))
  {
  }

  /** `rm` of the current directory (`rm .`, `rm ..`, an empty argument)
      deletes it, and the snapshot that follows raises. */
  lemma RmOwnDirectoryCrashes(policy: CdFailure, list: Lister, s: Connection, m: seq<byte>, rest: seq<Chunk>, cwd: Path)
    requires ReadsCommand(s, m, rest) && ServerDispatch(Decode(m)) == Rm && s.cwd == Some(cwd)
    requires var p := Resolve(cwd, Argument(Decode(m)));
      p <= cwd && p in s.fs.dirs && p !in s.fs.files
    ensures Step(policy, list, s).status == Crashed
    ensures Step(policy, list, s).sent == s.sent
  {
  }

  /** `ul` reads a second message and stores its bytes verbatim under the
      argument's name. */
  lemma UlWrites(policy: CdFailure, list: Lister, s: Connection, m: seq<byte>, rest: seq<Chunk>, cwd: Path,
                 data: seq<byte>, after: seq<Chunk>)
    requires ReadsCommand(s, m, rest) && ServerDispatch(Decode(m)) == Ul && s.cwd == Some(cwd)
    requires Receive(rest, Encode(s.token)) == Received(data, after)
    requires var p := Resolve(cwd, Argument(Decode(m)));
      cwd in s.fs.dirs && p != [] && p !in s.fs.dirs && Parent(p) in s.fs.dirs
    ensures var p := Resolve(cwd, Argument(Decode(m))); var r := Step(policy, list, s);
      && r.status == Serving && r.input == after && r.cwd == s.cwd
      && p in r.fs.files && r.fs.files[p] == data && r.fs.dirs == s.fs.dirs
      && (forall f :: f != p ==>
            && (f in r.fs.files <==> f in s.fs.files)
            && (f in s.fs.files ==> r.fs.files[f] == s.fs.files[f]))
      && r.sent == s.sent + [SnapshotMessage(list, r.fs, cwd, s.token)]
  {
  }

  /** `ul` reads exactly one more message, whether or not the write that
      follows succeeds; when the server carries on, that message is the
      file's new content. */
  lemma UlStores(policy: CdFailure, list: Lister, s: Connection, m: seq<byte>, rest: seq<Chunk>,
                 data: seq<byte>, after: seq<Chunk>)
    requires ReadsCommand(s, m, rest) && ServerDispatch(Decode(m)) == Ul && s.cwd.Some?
    requires Receive(rest, Encode(s.token)) == Received(data, after)
    ensures Step(policy, list, s).input == after
    ensures var p := Resolve(s.cwd.value, Argument(Decode(m))); var r := Step(policy, list, s);
      r.status == Serving ==> p in r.fs.files && r.fs.files[p] == data
  {
    assert Step(policy, list, s) == Execute(policy, list, s.(input := rest), Decode(m));
  }

  /** `ul` whose file never arrives leaves the server waiting. */
  lemma UlWaits(policy: CdFailure, list: Lister, s: Connection, m: seq<byte>, rest: seq<Chunk>)
    requires ReadsCommand(s, m, rest) && ServerDispatch(Decode(m)) == Ul && s.cwd.Some?
    requires Receive(rest, Encode(s.token)) == NoMessage
    ensures Step(policy, list, s).status == Blocked && Step(policy, list, s).sent == s.sent
  {
  }

  /** `dl` of anything but a directory sends two messages: the file or the
      error text, then the snapshot. */
  lemma DlSends(policy: CdFailure, list: Lister, s: Connection, m: seq<byte>, rest: seq<Chunk>, cwd: Path)
    requires ReadsCommand(s, m, rest) && ServerDispatch(Decode(m)) == Dl && s.cwd == Some(cwd)
    requires var p := Resolve(cwd, Argument(Decode(m)));
      cwd in s.fs.dirs && (p in s.fs.files || p !in s.fs.dirs)
    ensures var p := Resolve(cwd, Argument(Decode(m))); var r := Step(policy, list, s);
      && r.status == Serving && r.input == rest && r.fs == s.fs && r.cwd == s.cwd
      && |r.sent| == |s.sent| + 2
      && r.sent[..|s.sent|] == s.sent
      && (p in s.fs.files ==> r.sent[|s.sent|] == Frame(s.fs.files[p], Encode(s.token)))
      && (p !in s.fs.files ==> r.sent[|s.sent|] == Frame(Encode(NotFound), Encode(s.token)))
      && r.sent[|s.sent| + 1] == SnapshotMessage(list, s.fs, cwd, s.token)
  {
  }
}

=== FILE: snapshot.dfy ===
/** The directory snapshot the server sends after every command
    (`get_working_directory_info`). */
module Snapshot {
  import opened Text

  /** The separator put before every listed name. */
  const Marker := "\n-- "

  /** The first line and the bar line. */
  function Header(wd: string): string {
    "Current Directory: " + wd + ":\n|"
  }

  /** `'\n-- ' + '\n-- '.join(names)`. */
  function Section(names: seq<string>): string {
    Marker + Join(Marker, names)
  }

  /** The snapshot of directory `wd` given its subdirectory and file names in
      listing order. */
  function Render(wd: string, dirs: seq<string>, files: seq<string>): (r: string)
    ensures Header(wd) + Marker <= r
  {
    var r := Header(wd) + Section(dirs) + Section(files);
    assert r == Header(wd) + Marker + (Join(Marker, dirs) + Section(files));
    r
  }

  /** Each name, with the marker in front of it, one after another. */
  function Bullets(names: seq<string>): string {
    Concat(seq(|names|, i requires 0 <= i < |names| => Marker + names[i]))
  }

  /** A section is the bulleted list of its names, except that an empty
      list still prints one bare marker. */
  lemma {:induction false} SectionIsBullets(names: seq<string>)
    ensures Section(names) == if names == [] then Marker else Bullets(names)
  {
    if |names| == 1 {
      var b := seq(1, i requires 0 <= i < 1 => Marker + names[i]);
      assert b == [Marker + names[0]];
      assert Concat(b) == Marker + names[0] + Concat(b[1..]);
    } else if |names| > 1 {
      var tl := names[1..];
      SectionIsBullets(tl);
      var b := seq(|names|, i requires 0 <= i < |names| => Marker + names[i]);
      var bt := seq(|tl|, i requires 0 <= i < |tl| => Marker + tl[i]);
      assert b == [Marker + names[0]] + bt;
      assert b[1..] == bt;
      calc {
        Section(names);
        Marker + (names[0] + Marker + Join(Marker, tl));
        (Marker + names[0]) + (Marker + Join(Marker, tl));
        (Marker + names[0]) + Bullets(tl);
        Bullets(names);
      }
    }
  }

  /** The snapshot starts with the header, and then lists the directories
      and then the files; an empty list still contributes one marker. */
  lemma Shape(wd: string, dirs: seq<string>, files: seq<string>)
    ensures Render(wd, dirs, files) ==
      Header(wd)
      + (if dirs == [] then Marker else Bullets(dirs))
      + (if files == [] then Marker else Bullets(files))
  {
    SectionIsBullets(dirs);
    SectionIsBullets(files);
  }

  /** Every bulleted name occurs in the bulleted list. */
  lemma {:induction false} BulletOccurs(names: seq<string>, i: nat)
    requires i < |names|
    ensures IsInfix(Marker + names[i], Bullets(names))
  {
    var b := seq(|names|, j requires 0 <= j < |names| => Marker + names[j]);
    var x := Marker + names[i];
    var pre, post := b[..i], b[i + 1..];
    assert b == pre + [x] + post;
    ConcatAppend(pre + [x], post);
    ConcatSnoc(pre, x);
    assert Concat(b) == Concat(pre) + x + Concat(post);
    InfixOfConcat(Concat(pre), x, Concat(post));
  }

  /** Every listed subdirectory shows up as a `-- name` line of the
      snapshot, and so does every listed file. */
  lemma ListsEveryName(wd: string, dirs: seq<string>, files: seq<string>)
    ensures forall i :: 0 <= i < |dirs| ==> IsInfix(Marker + dirs[i], Render(wd, dirs, files))
    ensures forall i :: 0 <= i < |files| ==> IsInfix(Marker + files[i], Render(wd, dirs, files))
  {
    Shape(wd, dirs, files);
    var fs := if files == [] then Marker else Bullets(files);
    var ds := if dirs == [] then Marker else Bullets(dirs);
    forall i | 0 <= i < |dirs|
      ensures IsInfix(Marker + dirs[i], Render(wd, dirs, files))
    {
      BulletOccurs(dirs, i);
      InfixExtends(Marker + dirs[i], Bullets(dirs), Header(wd), fs);
    }
    forall i | 0 <= i < |files|
      ensures IsInfix(Marker + files[i], Render(wd, dirs, files))
    {
      BulletOccurs(files, i);
      InfixExtends(Marker + files[i], Bullets(files), Header(wd) + ds, []);
      assert Header(wd) + ds + Bullets(files) + [] == Render(wd, dirs, files);
    }
  }

  lemma InfixExtends(t: string, s: string, a: string, b: string)
    requires IsInfix(t, s)
    ensures IsInfix(t, a + s + b)
  {
    var k :| 0 <= k <= |s| && OccursAt(t, s, k);
    assert (a + s + b)[|a| + k..|a| + k + |t|] == s[k..k + |t|];
    assert OccursAt(t, a + s + b, |a| + k);
  }
}

=== FILE: text.dfy ===
/** Sequence and string helpers the two programs borrow from Python:
    `''.join`, `sep.join` and `str.split()`. */
module Text {

  /** `b''.join(xs)` / `''.join(xs)`: the pieces one after another. */
  function Concat<T>(xs: seq<seq<T>>): seq<T>
  {
    if |xs| == 0 then [] else xs[0] + Concat(xs[1..])
  }

  /** `sep.join(xs)`: the pieces with `sep` between neighbours. */
  function Join<T>(sep: seq<T>, xs: seq<seq<T>>): seq<T>
  {
    if |xs| == 0 then []
    else if |xs| == 1 then xs[0]
    else xs[0] + sep + Join(sep, xs[1..])
  }

  /** `t` occurs in `s` starting at index `k`. */
  predicate OccursAt<T(==)>(t: seq<T>, s: seq<T>, k: int) {
    0 <= k <= |s| - |t| && s[k..k + |t|] == t
  }

  /** `t` occurs somewhere inside `s`. */
  predicate IsInfix<T(==)>(t: seq<T>, s: seq<T>) {
    exists k :: 0 <= k <= |s| && OccursAt(t, s, k)
  }

  lemma ConcatAppend<T>(xs: seq<seq<T>>, ys: seq<seq<T>>)
    ensures Concat(xs + ys) == Concat(xs) + Concat(ys)
  {
    if |xs| > 0 {
      assert (xs + ys)[1..] == xs[1..] + ys;
      ConcatAppend(xs[1..], ys);
    } else {
      assert xs + ys == ys;
    }
  }

  lemma ConcatSnoc<T>(xs: seq<seq<T>>, x: seq<T>)
    ensures Concat(xs + [x]) == Concat(xs) + x
  {
    ConcatAppend(xs, [x]);
  }

  lemma InfixOfConcat<T>(a: seq<T>, t: seq<T>, b: seq<T>)
    ensures IsInfix(t, a + t + b)
  {
    var s := a + t + b;
    assert OccursAt(t, s, |a|);
  }

  // ---------------------------------------------------------------------
  // str.split()

  /** The ASCII characters for which Python's `str.isspace()` holds. */
  predicate IsSpace(c: char) {
    // space, \t \n \v \f \r, and the four separators 0x1c..0x1f
    c == ' ' || (9 <= c as int <= 13) || (28 <= c as int <= 31)
  }

  predicate NoSpace(s: string) {
    forall i :: 0 <= i < |s| ==> !IsSpace(s[i])
  }

  /** `s.split()`: the maximal runs of non-whitespace characters, in order. */
  function Words(s: string): (r: seq<string>)
    ensures forall i :: 0 <= i < |r| ==> r[i] != "" && NoSpace(r[i])
    ensures |s| > 0 && !IsSpace(s[0]) ==> |r| > 0 && r[0][0] == s[0]
  {
    if |s| == 0 then []
    else
      var rest := Words(s[1..]);
      if IsSpace(s[0]) then rest
      else if |s| > 1 && !IsSpace(s[1]) then [[s[0]] + rest[0]] + rest[1..]
      else [[s[0]]] + rest
  }

  /** `s` with every whitespace character deleted. */
  function RemoveSpaces(s: string): (r: string)
    ensures NoSpace(r)
  {
    if |s| == 0 then ""
    else if IsSpace(s[0]) then RemoveSpaces(s[1..])
    else [s[0]] + RemoveSpaces(s[1..])
  }

  /** Pieces without whitespace glue into a string without whitespace. */
  lemma {:induction false} ConcatNoSpace(xs: seq<string>)
    requires forall i :: 0 <= i < |xs| ==> NoSpace(xs[i])
    ensures NoSpace(Concat(xs))
  {
    if |xs| > 0 {
      ConcatNoSpace(xs[1..]);
    }
  }

  /** Gluing the words of a string back together with no separator is the
      same as deleting its whitespace. */
  lemma {:induction false} ConcatWords(s: string)
    ensures Concat(Words(s)) == RemoveSpaces(s)
  {
    if |s| > 0 {
      ConcatWords(s[1..]);
      var rest := Words(s[1..]);
      if !IsSpace(s[0]) && |s| > 1 && !IsSpace(s[1]) {
        assert [rest[0]] + rest[1..] == rest;
        calc {
          Concat(Words(s));
          ([s[0]] + rest[0]) + Concat(rest[1..]);
          [s[0]] + (rest[0] + Concat(rest[1..]));
          [s[0]] + Concat(rest);
        }
      }
    }
  }

  /** A non-empty run without whitespace is one word. */
  lemma {:induction false} WordsOfWord(w: string)
    requires w != "" && NoSpace(w)
    ensures Words(w) == [w]
  {
    if |w| == 1 {
      assert Words(w[1..]) == [];
      assert [w[0]] == w;
    } else {
      assert NoSpace(w[1..]);
      WordsOfWord(w[1..]);
      assert [w[0]] + w[1..] == w;
    }
  }

  /** A word followed by whitespace (or by nothing) is the first word. */
  lemma {:induction false} WordsBeforeSpace(w: string, s: string)
    requires w != "" && NoSpace(w)
    requires s == "" || IsSpace(s[0])
    ensures Words(w + s) == [w] + Words(s)
    decreases |w|
  {
    var ws := w + s;
    assert ws[1..] == w[1..] + s;
    if |w| == 1 {
      assert ws[1..] == s;
      assert [w[0]] == w;
    } else {
      WordsBeforeSpace(w[1..], s);
      assert ws[1] == w[1];
      assert [w[0]] + w[1..] == w;
    }
  }
}

=== FILE: token.dfy ===
/** The per-connection end-of-message token (`generate_random_eof_token`).

    The random choices are not modelled: the eight indices `random.choice`
    picked are an input, and what the code guarantees for every such choice
    is the token's shape. */
module Token {
  import opened Bytes

  /** `string.ascii_letters + string.digits`: `a`..`z`, `A`..`Z`, `0`..`9`. */
  const Alphabet := Range('a', 26) + Range('A', 26) + Range('0', 10)

  /** Number of characters drawn between the angle brackets. */
  const Draws := 8

  predicate IsAlnum(c: char) {
    ('a' <= c <= 'z') || ('A' <= c <= 'Z') || ('0' <= c <= '9')
  }

  /** `<`, eight ASCII letters or digits, `>`. */
  predicate ValidToken(t: string) {
    && |t| == Draws + 2
    && t[0] == '<'
    && t[Draws + 1] == '>'
    && forall i :: 1 <= i <= Draws ==> IsAlnum(t[i])
  }

  /** The loop of `generate_random_eof_token`: start with `<`, append the
      eight drawn characters, close with `>`. Whatever was drawn, the result
      has the token shape, and its interior is exactly the drawn characters. */
  method GenerateToken(picks: seq<nat>) returns (t: string)
    requires |picks| == Draws
    requires forall i :: 0 <= i < |picks| ==> picks[i] < |Alphabet|
    ensures ValidToken(t)
    ensures forall i :: 0 <= i < Draws ==> t[i + 1] == Alphabet[picks[i]]
  {
    t := "<";
    var i := 0;
    while i < Draws
      invariant 0 <= i <= Draws
      invariant |t| == i + 1 && t[0] == '<'
      invariant forall j :: 0 <= j < i ==> t[j + 1] == Alphabet[picks[j]]
      invariant forall j :: 1 <= j <= i ==> IsAlnum(t[j])
    {
      AlphabetIsAlnum(picks[i]);
      t := t + [Alphabet[picks[i]]];
      i := i + 1;
    }
    var drawn := t;
    t := drawn + ">";
    assert forall j :: 0 <= j <= Draws ==> t[j] == drawn[j];
  }

  /** `n` consecutive characters starting at `first`. */
  function Range(first: char, n: nat): (r: string)
    requires first as int + n < 0xD800
    ensures |r| == n
    ensures forall i :: 0 <= i < n ==> r[i] as int == first as int + i
  {
    seq(n, i requires 0 <= i < n => (first as int + i) as char)
  }

  lemma AlphabetIsAlnum(k: nat)
    requires k < |Alphabet|
    ensures IsAlnum(Alphabet[k])
  {
  }

  /** Where a letter or digit sits in `Alphabet`. */
  function IndexOf(c: char): (k: nat)
    requires IsAlnum(c)
    ensures k < |Alphabet| && Alphabet[k] == c
  {
    if 'a' <= c <= 'z' then c as int - 'a' as int
    else if 'A' <= c <= 'Z' then 26 + (c as int - 'A' as int)
    else 52 + (c as int - '0' as int)
  }

  /** Conversely, every string of the token shape is produced by some
      choice of the eight draws. */
  method TokenFromShape(t: string) returns (picks: seq<nat>)
    requires ValidToken(t)
    ensures |picks| == Draws
    ensures forall i :: 0 <= i < |picks| ==> picks[i] < |Alphabet| && Alphabet[picks[i]] == t[i + 1]
  {
    picks := seq(Draws, i requires 0 <= i < Draws => IndexOf(t[i + 1]));
  }

  /** A token is ASCII text, so it survives `encode()`/`decode()` and is ten
      bytes on the wire. */
  lemma TokenWire(t: string)
    requires ValidToken(t)
    ensures IsAscii(t) && |Encode(t)| == 10
    ensures Decode(Encode(t)) == t
  {
    DecodeEncode(t);
  }
}

=== FILE: wrappers.dfy ===
/** Failure-carrying values used where the Python code returns `None` or lets
    an exception escape. */
module Wrappers {

  /** `Some(v)` or the Python `None`. */
  datatype Option<+T> = None | Some(value: T)
}
